=== FILE: README.md ===
# String case converters, modelled in Dafny

This project models the string case converters of the `prompt_enginnering`
scripts. There are four converters:

- `toCamelCase` and `toDotCase` in `refined_prompt.js`. They have a type guard
  that admits strings and numbers only.
- `toKebabCase` in `chain_prompt.js`. Its guard refuses only objects and
  functions, and it folds Unicode before tokenising.
- The unguarded `toCamelCase` in `few_shot_prompt.js`. It has no acronym pass.
- The worked examples of `basic_prompt.js`, checked against both camelCase
  converters.

Every converter runs the same pipeline:

1. `String(value).trim()`.
2. Three `String.prototype.replace` passes:
   - `/([a-z0-9])([A-Z])/g`, the case boundary;
   - `/([A-Z]+)([A-Z][a-z0-9]+)/g`, the acronym split;
   - `/[^A-Za-z0-9]+/g`, which turns each separator run into one separator.
3. Either `split(/\s+/).filter(Boolean).map(toLowerCase)` followed by a
   renderer, or, for kebab-case, hyphen clean-up and `toLowerCase`.

How the model is built:

- Each regex pass is its own function, written the way the regex engine
  scans. The acronym pass backtracks over the length of group 1
  (`Passes.TryAcronym`).
- `Tokenizer.Tokens` composes the passes.
- An independent one-pass reference scanner, `Scan.ScanTokens`, marks a
  boundary wherever a three-character window shows one. `Scan.TokensMatchScan`
  proves the two agree on every string. The general token facts are proved
  from the reference scanner.
- The renderers are `Render.Camel` and `WordSplit.Join`.
- JavaScript values are `JsValues.Input`. The outcome is `JsValues.Result`:
  either `Ok(text)` or `TypeError(message)`, with the exact messages the
  source throws.

Modules, one per file:

| module | file |
|---|---|
| `Chars` | `chars.dfy` |
| `Seqs` | `seqs.dfy` |
| `Passes` | `passes.dfy` |
| `WordSplit` | `words.dfy` |
| `Tokenizer` | `tokenizer.dfy` |
| `Scan` | `scan.dfy` |
| `TokenFacts` | `token_facts.dfy` |
| `JsValues` | `values.dfy` |
| `Joins` | `joins.dfy` |
| `Render` | `render.dfy` |
| `Refined` | `refined.dfy` |
| `Chain` | `chain.dfy` |
| `FewShot` | `fewshot.dfy` |
| `Examples` | `examples.dfy` |
| `DotExamples` | `dot_examples.dfy` |
| `KebabExamples` | `kebab_examples.dfy` |

## Model

| member | source | states |
|---|---|---|
| JsValues.TypeOf | prompt_enginnering/refined_prompt.js:27 | `typeof` is `"object"` exactly for null and objects, `"function"` exactly for functions, `"string"` exactly for strings and `"number"` exactly for numbers |
| JsValues.NatToStringRoundTrip | prompt_enginnering/refined_prompt.js:33 | the decimal text `String(n)` gives a natural number reads back as `n` |
| JsValues.Stringify | prompt_enginnering/refined_prompt.js:33 | `String(value)`: a string converts to itself, a boolean to `true` or `false`, and a safe integer or a bigint to its decimal text, with a minus sign exactly when it is negative, then digits with no leading zero that read back as its magnitude |
| JsValues.Trim | prompt_enginnering/refined_prompt.js:33 | `trim` returns the slice of the input between its leading and trailing whitespace; only whitespace is cut, and the result neither starts nor ends with whitespace |
| JsValues.TrimKeepsAlnum | prompt_enginnering/chain_prompt.js:25 | trimming loses no ASCII letter or digit |
| Passes.SplitCaseBoundaries | prompt_enginnering/refined_prompt.js:37 | the case-boundary pass only inserts spaces: removing all whitespace gives the same text before and after |
| Scan.CasePassInserts | prompt_enginnering/refined_prompt.js:37 | the case-boundary pass, a left-to-right match-and-resume loop, inserts one space exactly before each capital that follows a lower-case letter or digit |
| Passes.MatchAcronym | prompt_enginnering/refined_prompt.js:40 | the backtracking match of `([A-Z]+)([A-Z][a-z0-9]+)` at a position succeeds exactly when the run of capitals there has at least two letters and a lower-case letter or digit follows it; group 1 is then the run minus its last capital, and the match ends with the run of `[a-z0-9]` after it |
| Passes.SplitAcronyms | prompt_enginnering/refined_prompt.js:40 | the acronym pass only inserts spaces |
| Scan.AcronymPassInserts | prompt_enginnering/refined_prompt.js:40 | the acronym pass inserts one space exactly before each capital that is preceded by a capital and followed by a lower-case letter or digit |
| Scan.PassesCompose | prompt_enginnering/refined_prompt.js:37-40 | running the acronym pass after the case pass inserts exactly the boundaries either rule finds in the original string |
| Passes.CollapseHyphens | prompt_enginnering/chain_prompt.js:40 | after `replace(/-+/g, '-')` no two hyphens stand together; with hyphens removed, the result and the input are the same text; the result is empty exactly when the input is, and starts with a hyphen exactly when the input does |
| Passes.CollapseAppend | prompt_enginnering/chain_prompt.js:40 | collapsing `a + b` is collapsing `a` and `b` separately whenever no run of hyphens straddles the junction |
| Passes.CollapseRun | prompt_enginnering/chain_prompt.js:40 | a maximal run of one or more hyphens becomes exactly one `-`, and the text on either side collapses on its own |
| Passes.CollapseUndoubled | prompt_enginnering/chain_prompt.js:40 | collapsing leaves a string that has no doubled hyphen unchanged |
| Passes.TrimHyphens | prompt_enginnering/chain_prompt.js:40 | after the hyphen trim, which drops one `-` at the start and one at the end, a string that had no doubled hyphen neither starts nor ends with a hyphen; a non-empty string that neither starts nor ends with one is unchanged; `Chain.TrimHyphensSlice` states the rest (the result is the input with those two hyphens sliced off) |
| Chain.TrimHyphensSlice | prompt_enginnering/chain_prompt.js:40 | the hyphen trim is the slice that starts after a leading `-` when there is one and ends before a trailing `-` when one is left |
| Chars.LowerString | prompt_enginnering/chain_prompt.js:40 | `toLowerCase` keeps the length, and each character of the result is the lower-case form of the input character in that place (ASCII capitals move down, everything else stays) |
| Tokenizer.Tokens | prompt_enginnering/refined_prompt.js:37-46 | the three passes, the whitespace split and `filter(Boolean)` leave no empty token; `TokenFacts.TokenInvariants` states the rest |
| Passes.ReplaceSeparators | prompt_enginnering/refined_prompt.js:43 | the separator pass leaves only letters, digits and the separator; it never doubles the separator; it is empty only for an empty input; it starts with the separator exactly when the input starts with a non-alphanumeric character; and it keeps the input's letters and digits in order; `Scan.SeparatorPassWords` states the rest (with a space as separator, the result splits into the same words as the input with every other non-alphanumeric character turned into a space) |
| Scan.SeparatorPassWords | prompt_enginnering/refined_prompt.js:43-46 | splitting the separator pass's output on spaces gives the same words, and the same break at the front, as splitting the input with every non-alphanumeric character turned into a space |
| Scan.TokensMatchScan | prompt_enginnering/refined_prompt.js:37-46 | the tokens the three passes and the whitespace split produce equal those of the independent one-pass scanner, for every string and with or without the acronym pass |
| TokenFacts.TokenInvariants | prompt_enginnering/refined_prompt.js:37-46 | every token is non-empty and over `[a-z0-9]`; the tokens concatenated are the input's ASCII letters and digits, lower-cased, in order; there are no tokens exactly when the input has no letter or digit |
| TokenFacts.TokensSplit | prompt_enginnering/refined_prompt.js:37-46 | at a junction where a boundary falls, or a separator stands, the tokens of `a + b` are those of `a` followed by those of `b` |
| TokenFacts.TokensMerge | prompt_enginnering/refined_prompt.js:37-46 | at a junction of two alphanumeric characters with no boundary, the last token of `a` and the first token of `b` fuse into one, unless, with the acronym pass on, `a` ends in two capitals and `b` starts with a lower-case letter or digit (then the acronym rule splits inside `a`: `AB` + `c` gives `a`, `bc`) |
| TokenFacts.OneToken | prompt_enginnering/refined_prompt.js:37-46 | an alphanumeric string with no internal boundary is one token, its lower-cased self |
| TokenFacts.NoTokens | prompt_enginnering/refined_prompt.js:47 | a string of separators only has no tokens |
| TokenFacts.TrimKeepsTokens | prompt_enginnering/refined_prompt.js:33 | trimming does not change the tokens |
| TokenFacts.TokensOfJoin | prompt_enginnering/refined_prompt.js:103 | non-empty lower-case tokens joined by any separator character tokenise back to themselves |
| TokenFacts.AcronymPassIdle | prompt_enginnering/few_shot_prompt.js:14-17 | on a string without two adjacent capitals the acronym pass changes no token |
| WordSplit.SplitSpaces | prompt_enginnering/refined_prompt.js:46 | `split(/\s+/)` yields at least one piece and no piece holds whitespace; the first piece is empty exactly when the input is empty or starts with whitespace, and otherwise starts with the input's first character |
| WordSplit.NonEmpty | prompt_enginnering/refined_prompt.js:46 | `filter(Boolean)` leaves no empty piece, never adds a piece, and keeps pieces free of whitespace when they were |
| WordSplit.NonEmptyKeeps | prompt_enginnering/refined_prompt.js:46 | `filter(Boolean)` keeps exactly the non-empty pieces: a string is in the result if and only if it is a non-empty piece of the input |
| WordSplit.LowerAll | prompt_enginnering/refined_prompt.js:46 | `map(p => p.toLowerCase())` keeps the number of pieces and lower-cases each one in place |
| WordSplit.Join | prompt_enginnering/refined_prompt.js:103 | `parts.join(sep)` starts with the first part, followed by `sep` when there is a second part; `Joins.JoinDelimited`, `Joins.JoinAlnum` and `TokenFacts.TokensOfJoin` state the rest |
| WordSplit.Words | prompt_enginnering/refined_prompt.js:46 | every word `split(/\s+/).filter(Boolean)` yields is non-empty and holds no whitespace |
| WordSplit.WordsOfJoin | prompt_enginnering/refined_prompt.js:46 | `split(/\s+/).filter(Boolean)` of non-empty space-free words joined by a space gives the words back |
| WordSplit.ConcatWords | prompt_enginnering/refined_prompt.js:46 | the split words concatenated are the input with its whitespace removed |
| WordSplit.ConcatAppend | prompt_enginnering/refined_prompt.js:52 | `join('')` distributes over putting two word lists one after the other; with `Render.ConcatSingle` this pins down `WordSplit.Concat`, which carries no contract of its own |
| Render.Capitalize | prompt_enginnering/refined_prompt.js:51 | capitalising keeps the length and every character after the first; a lower-case word's capitalised form lower-cases back to it, and starts with a capital exactly when the word starts with a letter, so a leading digit stays |
| Render.CapitalizeAll | prompt_enginnering/refined_prompt.js:51 | mapping the capitaliser over the words keeps their number, and the word in each place is the capitalised form of the word in that place |
| Render.ConcatSingle | prompt_enginnering/refined_prompt.js:52 | `join('')` of a single word is that word |
| Render.Camel | prompt_enginnering/refined_prompt.js:50-52 | the first token stands unchanged at the front of the rendering; `Render.CamelContents` states the rest |
| Render.CamelContents | prompt_enginnering/refined_prompt.js:50-52 | a camelCase rendering of lower-case tokens holds only letters and digits, and lower-cases to the tokens glued together |
| Render.CamelRoundTrip | prompt_enginnering/refined_prompt.js:37-52 | tokenising the rendering of recoverable tokens gives the tokens back, with or without the acronym pass; tokens are recoverable when later ones start with a letter and middle ones have two or more characters |
| Render.CamelLosesShortMiddleToken | prompt_enginnering/refined_prompt.js:37-52 | for any lower-case letters `x`, `y` and `z`, the tokens `x y z` render as `xYZ`, which tokenises as `x yz` and renders as `xYz`, so the rendering differs from the original |
| Joins.JoinDelimited | prompt_enginnering/refined_prompt.js:103 | lower-case tokens joined by `.` use only `[a-z0-9]` and the delimiter, never start or end with it, never double it, and are empty exactly when there are no tokens |
| Joins.JoinAlnum | prompt_enginnering/refined_prompt.js:103 | the letters and digits of a join are the tokens concatenated |
| Joins.SwapJoin | prompt_enginnering/chain_prompt.js:37 | exchanging one delimiter for another in a join of tokens without either delimiter gives the join by the other |
| Refined.ToCamelCase | prompt_enginnering/refined_prompt.js:25-53 | null and undefined give `''`; a `TypeError` is thrown exactly for non-nullish values that are neither strings nor numbers, with the source's message |
| Refined.ToDotCase | prompt_enginnering/refined_prompt.js:78-104 | the same guard and message behaviour for dot.case |
| Refined.CamelCaseIsRendering | prompt_enginnering/refined_prompt.js:33-52 | for a string or number, the trim and the two early returns do not matter: the result is the camel rendering of the tokens of `String(value)` |
| Refined.DotCaseIsJoin | prompt_enginnering/refined_prompt.js:86-103 | for a string or number, the result is the tokens of `String(value)` joined by `.` |
| Refined.CamelCaseContents | prompt_enginnering/refined_prompt.js:37-52 | the camelCase result holds only letters and digits and starts with a lower-case letter or digit; it lower-cases to the input's letters and digits, lower-cased, in order; it is empty exactly when the input has none, so separator-only and whitespace-only input gives `''` |
| Refined.DotCaseShape | prompt_enginnering/refined_prompt.js:90-103 | the dot.case result is over `[a-z0-9.]` with no leading, trailing or doubled `.`; its letters and digits are the input's, lower-cased; it is empty exactly when the input has no letter or digit |
| Refined.CamelCaseRoundTrip | prompt_enginnering/refined_prompt.js:37-52 | for recoverable tokens, the camelCase result tokenises back to the input's tokens, and converting it again changes nothing |
| Refined.DotCaseRoundTrip | prompt_enginnering/refined_prompt.js:90-103 | the dot.case result tokenises back to the input's tokens, and toDotCase is idempotent |
| Refined.NumberConversions | prompt_enginnering/refined_prompt.js:33-47 | an integer converts to its decimal digits in both styles; a minus sign is a separator and is dropped |
| Chain.ToKebabCase | prompt_enginnering/chain_prompt.js:18-43 | null and undefined give `''`; a `TypeError` is thrown exactly for objects and functions, with message `toKebabCase expects a string or number, got object` or `… got function`; booleans, bigints and symbols are converted |
| Chain.ReplaceSeparatorsSwap | prompt_enginnering/chain_prompt.js:37 | the separator pass with `-` is the separator pass with a space, every space then exchanged for `-` |
| Chain.KebabCore | prompt_enginnering/chain_prompt.js:40 | on single-spaced text, the hyphen trim of the text with spaces turned into hyphens is the text's words joined by `-` |
| Chain.KebabPipeline | prompt_enginnering/chain_prompt.js:32-40 | the two boundary passes, the separator pass with `-`, the hyphen collapse, the hyphen trim and `toLowerCase` give the tokens of the text joined by `-` |
| Chain.KebabIsJoin | prompt_enginnering/chain_prompt.js:25-42 | for every value the guard admits, the kebab-case result is the tokens of the folded, trimmed `String(value)` joined by `-` |
| Chain.KebabShape | prompt_enginnering/chain_prompt.js:37-40 | the kebab-case result is over `[a-z0-9-]` with no leading, trailing or doubled `-`; its letters and digits are those of the folded text, lower-cased; it is empty exactly when there are none, so blank input gives `''` |
| Chain.KebabIdempotent | prompt_enginnering/chain_prompt.js:29-40 | if the fold leaves a kebab-case result alone, converting that result again gives the same result |
| Chain.KebabMatchesDot | prompt_enginnering/chain_prompt.js:29-40 | for a string or number whose trimmed text the fold leaves alone, the kebab-case result is the dot.case result with every `.` exchanged for `-` |
| FewShot.ToCamelCase | prompt_enginnering/few_shot_prompt.js:10-20 | no value is refused: null and undefined give `''`, and every other value converts, to `''` exactly when `String(input)` has no ASCII letter or digit |
| FewShot.FewShotIsRendering | prompt_enginnering/few_shot_prompt.js:11-19 | for every non-nullish input, with no type check, the result is the camel rendering of the tokens of `String(input)` found without the acronym pass; null and undefined give `''` |
| FewShot.FewShotContents | prompt_enginnering/few_shot_prompt.js:16-19 | the result holds only letters and digits and starts with a lower-case letter or digit; it lower-cases to the input's letters and digits, lower-cased; it is empty exactly when there are none |
| FewShot.FewShotRoundTrip | prompt_enginnering/few_shot_prompt.js:12-19 | for recoverable tokens the result tokenises back to the input's tokens, and converting it again changes nothing |
| FewShot.FewShotAgreesWithRefined | prompt_enginnering/few_shot_prompt.js:12-19 | on a string or number with no two adjacent capitals, the unguarded converter agrees with the guarded one |
| FewShot.FewShotConvertsRejected | prompt_enginnering/few_shot_prompt.js:11-12 | where the guarded converter throws, the unguarded one converts the text of `String(input)` |
| Examples.CamelFirstName | prompt_enginnering/refined_prompt.js:20 | `'first name'` becomes `'firstName'`, in both camelCase converters |
| Examples.CamelUserId | prompt_enginnering/refined_prompt.js:21 | `'user_id'` becomes `'userId'`, in both camelCase converters |
| Examples.CamelScreenName | prompt_enginnering/refined_prompt.js:22 | `'SCREEN_NAME'` becomes `'screenName'`, in both camelCase converters |
| Examples.CamelMobileNumber | prompt_enginnering/few_shot_prompt.js:8 | `'mobile-number'` becomes `'mobileNumber'`, in both camelCase converters |
| Examples.BasicHelloWorld | prompt_enginnering/basic_prompt.js:12 | `"hello world"` becomes `"helloWorld"`, in both camelCase converters |
| Examples.BasicFooBarBazQux | prompt_enginnering/basic_prompt.js:13 | `"  Foo-bar_baz.qux "` becomes `"fooBarBazQux"`, in both camelCase converters |
| Examples.BasicAlreadyCamelCase | prompt_enginnering/basic_prompt.js:14 | `"alreadyCamelCase"` is left unchanged by both camelCase converters |
| DotExamples.DotFirstNameLastName | prompt_enginnering/refined_prompt.js:73 | `'FirstName last-name'` becomes `'first.name.last.name'` |
| DotExamples.DotUserId | prompt_enginnering/refined_prompt.js:74 | `'user_id'` becomes `'user.id'` |
| DotExamples.DotXmlHttpRequest | prompt_enginnering/refined_prompt.js:75 | `'XMLHttpRequest'` becomes `'xml.http.request'` in dot.case and `'xmlHttpRequest'` in the guarded camelCase |
| DotExamples.CamelXmlHttp | prompt_enginnering/refined_prompt.js:12 | `'XMLHttp'` becomes `'xmlHttp'` |
| DotExamples.IdIsOneToken | prompt_enginnering/refined_prompt.js:40 | `'ID'` is not split: it becomes `'id'` in both styles |
| DotExamples.AcronymBeforeDigit | prompt_enginnering/refined_prompt.js:40 | `'MP3'` is split before its last capital: `'m.p3'` in dot.case, `'mP3'` in camelCase |
| DotExamples.FewShotXmlHttpRequest | prompt_enginnering/few_shot_prompt.js:14-17 | without the acronym pass, `'XMLHttpRequest'` becomes `'xmlhttpRequest'` |
| KebabExamples.KebabFirstName | prompt_enginnering/chain_prompt.js:51 | `'first name'` becomes `'first-name'` when the fold leaves the text alone |
| KebabExamples.KebabUserId | prompt_enginnering/chain_prompt.js:52 | `'user_id'` becomes `'user-id'` when the fold leaves the trimmed text alone |
| KebabExamples.KebabScreenName | prompt_enginnering/chain_prompt.js:53 | `'SCREEN_NAME'` becomes `'screen-name'` when the fold leaves the trimmed text alone |
| KebabExamples.KebabMobileNumber | prompt_enginnering/chain_prompt.js:54 | `'mobile-number'` is unchanged when the fold leaves the trimmed text alone |
| KebabExamples.KebabMultipleDelimiters | prompt_enginnering/chain_prompt.js:55 | `'  multiple--spaces_and.delimiters  '` becomes `'multiple-spaces-and-delimiters'` when the fold leaves the trimmed text alone |
| KebabExamples.KebabCamelCaseExample | prompt_enginnering/chain_prompt.js:56 | `'camelCaseExample'` becomes `'camel-case-example'` when the fold leaves the trimmed text alone |
| KebabExamples.KebabAccented | prompt_enginnering/chain_prompt.js:57 | `'Accented élève'` becomes `'accented-eleve'` when the fold strips the accents |
| KebabExamples.KebabEmpty | prompt_enginnering/chain_prompt.js:19-26 | `''` gives `''`, and so do whitespace-only text, null and undefined, whatever the fold |
| KebabExamples.BooleanGuards | prompt_enginnering/chain_prompt.js:20-23 | a boolean makes the guarded camelCase and dot.case converters throw their `TypeError`; the kebab-case converter and the unguarded camelCase converter both return `'true'` or `'false'` |

## Left out

- The Express server in `simple-express-server/src/index.js` is not part of this model. It is HTTP plumbing with a mutable task list, and the converters do not use it.
- The `module.exports` guards and the command-line demonstration loop in `chain_prompt.js` print to the console. They are left out; the demonstration's input/output pairs are the `KebabExamples` lemmas.
- `normalize('NFKD')` followed by the removal of `\p{Diacritic}` is the `fold` parameter of `Chain.ToKebabCase`, taken as given. The Unicode decomposition and property tables are not modelled. Each kebab example states what the fold does to its input.
- Characters are Dafny `char`s, which are Unicode scalar values, not UTF-16 code units. The regex classes and the case mappings are ASCII-only. This is exact here: every `toLowerCase` and `toUpperCase` call in the converters sees only ASCII letters, digits and hyphens.
- Numbers are safe integers only, of magnitude at most `Number.MAX_SAFE_INTEGER` (2^53 - 1). `String(n)` is modelled as decimal digits with a leading `-`. Fractions, `NaN`, `Infinity`, exponent forms and larger integers are not modelled.
- Refined.NumberConversions: holds for safe integers only. A larger integer-valued double prints its shortest round-trip digits (2^60 prints as `1152921504606847000`, not `1152921504606846976`), which the model does not compute, so `Num` is bounded to the safe range.
- `Sym` carries a description and stringifies as `Symbol(description)`. In JavaScript, `String(symbol)` succeeds but `symbol + ''` would throw. The kebab-case converter calls `String(input)`, so converting is the right model.
- `Obj` and `Func` carry the text `String(value)` yields for them when the conversion to a primitive succeeds. Only the unguarded converter ever looks at it.
- FewShot.ToCamelCase: does not model a throw from `String(input)`. For an object, `String` runs the conversion to a primitive (`Symbol.toPrimitive`, then `toString`, then `valueOf`). That conversion throws a `TypeError` for `Object.create(null)` or when every method returns an object, and it passes on any exception a `toString` throws. The model's converter is total.
- `Chain.ToKebabCase`: the `input === null ? 'null' : t` branch of the message cannot be reached. The model keeps it, but null has already returned `''` by then.
- Render.CamelRoundTrip, Refined.CamelCaseRoundTrip and FewShot.FewShotRoundTrip require recoverable tokens. This is because the camel rendering is not a fixed point in general: `Render.CamelLosesShortMiddleToken` shows a one-letter middle token merging with the next one.
- Chain.KebabIdempotent and Chain.KebabMatchesDot require the fold to leave the text alone. For ASCII input this holds except for `^` and `` ` ``, which carry the Diacritic property and are deleted rather than treated as separators.
- Two converters check types less than the guarded ones do, and the model follows the code. One promises more checking than it does; the other promises none and checks nothing:
  - `toKebabCase` is documented as accepting strings or numbers (`chain_prompt.js:4`, `chain_prompt.js:9`). Its check refuses only `object` and `function` (`chain_prompt.js:21`, as its `@throws` line `chain_prompt.js:11` says), so booleans, bigints and symbols are converted (`KebabExamples.BooleanGuards`).
  - The unguarded `toCamelCase` is documented as converting a string (`few_shot_prompt.js:2`), but it checks nothing.

=== FILE: chain.dfy ===
/** `toKebabCase` of the chained module: `''` for null and undefined, a
    `TypeError` for objects and functions only, then trim, Unicode folding,
    both boundary passes, separators to `-`, hyphen clean-up and
    lower-casing. */
module Chain {
  import opened Chars
  import opened Passes
  import opened WordSplit
  import opened Tokenizer
  import opened TokenFacts
  import opened Scan
  import opened Joins
  import opened JsValues
  import opened Seqs
  import Refined

  const KebabTypeMessage := "toKebabCase expects a string or number, got "

  /** Everything but null, undefined, objects and functions gets past the
      guard, booleans, bigints and symbols included. */
  predicate KebabConvertible(value: Input)
  {
    !IsNullish(value) && !value.Obj? && !value.Func?
  }

  /** `fold` stands for `normalize('NFKD')` followed by the removal of
      `\p{Diacritic}`, which the model takes as given. */
  function ToKebabCase(value: Input, fold: string -> string): (r: Result)
    ensures IsNullish(value) ==> r == Ok("")
    ensures r.TypeError? <==> value.Obj? || value.Func?
    ensures value.Obj? ==> r == TypeError(KebabTypeMessage + "object")
    ensures value.Func? ==> r == TypeError(KebabTypeMessage + "function")
  {
    if IsNullish(value) then Ok("")
    else
      var t := TypeOf(value);
      if t == "object" || t == "function" then
        TypeError(KebabTypeMessage + (if value.Null? then "null" else t))
      else
        var str := Trim(Stringify(value));
        if |str| == 0 then Ok("")
        else
          var s := fold(str);
          var camel := SplitCaseBoundaries(s);
          var acronyms := SplitAcronyms(camel);
          var hyphens := ReplaceSeparators(acronyms, '-');
          Ok(LowerString(TrimHyphens(CollapseHyphens(hyphens))))
  }

  /** The separator pass with `-` is the one with a space, every space then
      turned into `-`. */
  lemma {:induction false} ReplaceSeparatorsSwap(y: string, sep: char)
    requires IsSeparator(sep)
    ensures ReplaceSeparators(y, sep) == Swap(ReplaceSeparators(y, ' '), ' ', sep)
    decreases |y|
  {
    if |y| > 0 {
      if IsAlnum(y[0]) {
        ReplaceSeparatorsSwap(y[1..], sep);
        ReplaceSeparatorsCons(y);
        SwapAppend([y[0]], ReplaceSeparators(y[1..], ' '), ' ', sep);
      } else {
        var n := Run(y, IsSeparator);
        ReplaceSeparatorsSwap(y[n..], sep);
        ReplaceSeparatorsRun(y);
        SwapAppend([' '], ReplaceSeparators(y[n..], ' '), ' ', sep);
      }
    }
  }

  /** Where the hyphen clean-up cuts: one leading and one trailing space. */
  function InnerStart(x: string): nat
  {
    if |x| > 0 && x[0] == ' ' then 1 else 0
  }

  function InnerEnd(x: string): (j: nat)
    ensures InnerStart(x) <= j <= |x|
  {
    if |x| > InnerStart(x) && x[|x| - 1] == ' ' then |x| - 1 else |x|
  }

  /** The hyphen trim removes exactly the ends that were spaces. */
  lemma TrimHyphensOfSwap(x: string)
    requires Separated(x, ' ')
    ensures TrimHyphens(Swap(x, ' ', '-')) == Swap(x[InnerStart(x)..InnerEnd(x)], ' ', '-')
  {
    var z := Swap(x, ' ', '-');
    if |x| > 0 {
      assert z[0] == '-' <==> x[0] == ' ';
      assert z[|x| - 1] == '-' <==> x[|x| - 1] == ' ';
    }
    TrimHyphensSlice(z, InnerStart(x), InnerEnd(x));
    SwapSlice(x, InnerStart(x), InnerEnd(x), ' ', '-');
  }

  lemma TrimHyphensSlice(z: string, i: nat, j: nat)
    requires i == if |z| > 0 && z[0] == '-' then 1 else 0
    requires j == if |z| > i && z[|z| - 1] == '-' then |z| - 1 else |z|
    ensures i <= j <= |z| && TrimHyphens(z) == z[i..j]
  {
  }

  lemma SwapSlice(x: string, i: nat, j: nat, a: char, b: char)
    requires i <= j <= |x|
    ensures Swap(x, a, b)[i..j] == Swap(x[i..j], a, b)
  {
  }

  /** Dropping an end space leaves no space at either end. */
  lemma InnerShape(x: string)
    requires Separated(x, ' ')
    ensures var core := x[InnerStart(x)..InnerEnd(x)];
      && Separated(core, ' ')
      && (|core| > 0 ==> core[0] != ' ' && core[|core| - 1] != ' ')
  {
    var i, j := InnerStart(x), InnerEnd(x);
    var core := x[i..j];
    assert forall k :: 0 <= k < |core| ==> core[k] == x[i + k];
  }

  /** Dropping an end space keeps the words. */
  lemma InnerWords(x: string)
    requires Separated(x, ' ')
    ensures Words(x[InnerStart(x)..InnerEnd(x)]) == Words(x)
  {
    var i, j := InnerStart(x), InnerEnd(x);
    SplitThree(x, i, j);
    WordsPadded(x[..i], x[i..j], x[j..]);
  }

  lemma WordsPadded(pre: string, core: string, post: string)
    requires forall k :: 0 <= k < |pre| ==> IsSpace(pre[k])
    requires forall k :: 0 <= k < |post| ==> IsSpace(post[k])
    ensures Words(pre + core + post) == Words(core)
  {
    WordsOfSpaces(pre);
    WordsOfSpaces(post);
    if |post| > 0 {
      WordsAppendBreak(pre + core, post);
      AppendNil(Words(pre + core), []);
    } else {
      AppendNil(pre + core, []);
    }
    if |pre| > 0 {
      WordsAppendBreak(pre, core);
      AppendNil([], Words(core));
    } else {
      AppendNil([], core);
    }
  }

  lemma {:induction false} WordsOfSpaces(p: string)
    requires forall k :: 0 <= k < |p| ==> IsSpace(p[k])
    ensures Words(p) == []
    decreases |p|
  {
    if |p| > 0 {
      WordsOfSpaces(p[1..]);
      HeadTail(p);
      WordsSpaceCons(p[0], p[1..]);
    }
  }

  /** Hyphen clean-up after the separator pass turns the spaced string into
      its words joined by `-`. */
  lemma KebabCore(x: string)
    requires Separated(x, ' ')
    ensures TrimHyphens(Swap(x, ' ', '-')) == Join(Words(x), '-')
  {
    var core := x[InnerStart(x)..InnerEnd(x)];
    TrimHyphensOfSwap(x);
    InnerShape(x);
    InnerWords(x);
    JoinWordsOfSpaced(core);
    SpaceFreeWords(core);
    SwapJoin(Words(core), ' ', '-');
  }

  lemma SpaceFreeWords(s: string)
    ensures var ws := Words(s);
      forall k, i :: 0 <= k < |ws| && 0 <= i < |ws[k]| ==> ws[k][i] != ' '
  {
    var ws := Words(s);
    forall k, i | 0 <= k < |ws| && 0 <= i < |ws[k]|
      ensures ws[k][i] != ' '
    {
      assert NoSpace(ws[k]);
    }
  }

  /** The string steps after folding: the tokens of the folded string joined
      by `-`. */
  lemma KebabPipeline(s: string)
    ensures var hyphens := ReplaceSeparators(SplitAcronyms(SplitCaseBoundaries(s)), '-');
      LowerString(TrimHyphens(CollapseHyphens(hyphens))) == Join(Tokens(s, true), '-')
  {
    var y := SplitAcronyms(SplitCaseBoundaries(s));
    var x := Spaced(s, true);
    ReplaceSeparatorsSwap(y, '-');
    CollapseUndoubled(ReplaceSeparators(y, '-'));
    KebabCore(x);
    JoinLower(Words(x), '-');
  }

  /** The folded, trimmed input, or nothing when the trim leaves nothing. */
  function Folded(value: Input, fold: string -> string): string
  {
    var str := Trim(Stringify(value));
    if |str| == 0 then "" else fold(str)
  }

  /** The kebab-case result is the tokens of the folded input joined by `-`. */
  lemma KebabIsJoin(value: Input, fold: string -> string)
    requires KebabConvertible(value)
    ensures ToKebabCase(value, fold) == Ok(Join(Tokens(Folded(value, fold), true), '-'))
  {
    var str := Trim(Stringify(value));
    if |str| == 0 {
      NoTokens("", true);
    } else {
      KebabPipeline(fold(str));
    }
  }

  /** The kebab-case result is delimited by `-`, and its letters and digits
      are those of the folded input, lower-cased, in order; it is empty
      exactly when the folded input has none. */
  lemma KebabShape(value: Input, fold: string -> string)
    requires KebabConvertible(value)
    ensures var out := ToKebabCase(value, fold).value;
      && Delimited(out, '-')
      && AlnumOnly(out) == LowerString(AlnumOnly(Folded(value, fold)))
      && (out == "" <==> AlnumOnly(Folded(value, fold)) == "")
  {
    var ts := Tokens(Folded(value, fold), true);
    KebabIsJoin(value, fold);
    TokenInvariants(Folded(value, fold), true);
    JoinDelimited(ts, '-');
    JoinAlnum(ts, '-');
  }

  /** Converting a kebab-case result again changes nothing, given a fold
      that leaves it alone (folding only touches non-ASCII text). */
  lemma KebabIdempotent(value: Input, fold: string -> string)
    requires KebabConvertible(value)
    requires fold(ToKebabCase(value, fold).value) == ToKebabCase(value, fold).value
    ensures ToKebabCase(Str(ToKebabCase(value, fold).value), fold) == ToKebabCase(value, fold)
  {
    var ts := Tokens(Folded(value, fold), true);
    KebabIsJoin(value, fold);
    TokenInvariants(Folded(value, fold), true);
    JoinIsKebab(ts, fold);
  }

  /** Lower-case tokens joined by `-` are their own kebab case. */
  lemma JoinIsKebab(ts: seq<string>, fold: string -> string)
    requires LowerTokens(ts)
    requires fold(Join(ts, '-')) == Join(ts, '-')
    ensures ToKebabCase(Str(Join(ts, '-')), fold) == Ok(Join(ts, '-'))
  {
    var out := Join(ts, '-');
    JoinDelimited(ts, '-');
    DelimitedIsTrimmed(out, '-');
    TokensOfJoin(ts, '-', true);
    KebabIsJoin(Str(out), fold);
  }

  /** A delimited string neither starts nor ends with whitespace. */
  lemma DelimitedIsTrimmed(out: string, c: char)
    requires !IsSpace(c) && Delimited(out, c)
    ensures Trim(out) == out
  {
    if |out| > 0 {
      assert IsLowerOrDigit(out[0]) && IsLowerOrDigit(out[|out| - 1]);
    }
    TrimUntouched(out);
  }

  /** For a string or number whose trimmed text folding leaves alone, the
      kebab-case and dot.case results are the same tokens, joined by `-`
      and by `.` respectively. */
  lemma KebabMatchesDot(value: Input, fold: string -> string)
    requires Refined.Convertible(value)
    requires fold(Trim(Stringify(value))) == Trim(Stringify(value))
    ensures ToKebabCase(value, fold) == Ok(Swap(Refined.ToDotCase(value).value, '.', '-'))
  {
    var s := Stringify(value);
    var ts := Tokens(s, true);
    KebabIsJoin(value, fold);
    Refined.DotCaseIsJoin(value);
    UnfoldedTokens(value, fold);
    TokenInvariants(s, true);
    SwapLowerJoin(ts, '.', '-');
  }

  /** When folding leaves the trimmed text alone, it has the tokens of the
      untrimmed text. */
  lemma UnfoldedTokens(value: Input, fold: string -> string)
    requires fold(Trim(Stringify(value))) == Trim(Stringify(value))
    ensures Tokens(Folded(value, fold), true) == Tokens(Stringify(value), true)
  {
    TrimKeepsTokens(Stringify(value), true);
    NoTokens("", true);
  }

  lemma SwapLowerJoin(ts: seq<string>, a: char, b: char)
    requires !IsLowerOrDigit(a) && LowerTokens(ts)
    ensures Swap(Join(ts, a), a, b) == Join(ts, b)
  {
    forall k, i | 0 <= k < |ts| && 0 <= i < |ts[k]|
      ensures ts[k][i] != a
    {
    }
    SwapJoin(ts, a, b);
  }
}

=== FILE: chars.dfy ===
/** Character classes used by the converters' regular expressions.

    The character classes `[A-Z]`, `[a-z0-9]` and `[A-Za-z0-9]` of the regular
    expressions are ASCII-only, so they are modelled exactly; `\s` and
    `String.prototype.trim` use the ECMAScript WhiteSpace and LineTerminator
    code points, which `IsSpace` lists. */
module Chars {

  predicate IsUpper(c: char) { 'A' <= c <= 'Z' }

  predicate IsLower(c: char) { 'a' <= c <= 'z' }

  predicate IsDigit(c: char) { '0' <= c <= '9' }

  /** The class `[a-z0-9]`. */
  predicate IsLowerOrDigit(c: char) { IsLower(c) || IsDigit(c) }

  /** The class `[A-Za-z0-9]`; everything else is a separator. */
  predicate IsAlnum(c: char) { IsUpper(c) || IsLowerOrDigit(c) }

  /** The class `\s`: ECMAScript WhiteSpace and LineTerminator. */
  predicate IsSpace(c: char)
  {
    || c == '\t' || c == '\n' || c == '\U{0B}' || c == '\U{0C}' || c == '\r'
    || c == ' ' || c == '\U{A0}' || c == '\U{1680}'
    || ('\U{2000}' <= c <= '\U{200A}')
    || c == '\U{2028}' || c == '\U{2029}' || c == '\U{202F}' || c == '\U{205F}'
    || c == '\U{3000}' || c == '\U{FEFF}'
  }

  lemma AlnumIsNotSpace(c: char)
    requires IsAlnum(c)
    ensures !IsSpace(c)
  {
  }

  /** `toLowerCase` restricted to ASCII letters. */
  function ToLower(c: char): (d: char)
    ensures IsUpper(c) ==> IsLower(d) && d as int == c as int + 32
    ensures !IsUpper(c) ==> d == c
    ensures IsAlnum(c) <==> IsLowerOrDigit(d)
  {
    if IsUpper(c) then (c as int + 32) as char else c
  }

  /** `toUpperCase` restricted to ASCII letters. */
  function ToUpper(c: char): (d: char)
    ensures IsLower(c) ==> IsUpper(d) && ToLower(d) == c
    ensures !IsLower(c) ==> d == c
    ensures IsAlnum(c) <==> IsAlnum(d)
  {
    if IsLower(c) then (c as int - 32) as char else c
  }

  function LowerString(s: string): (r: string)
    ensures |r| == |s|
    ensures forall i :: 0 <= i < |s| ==> r[i] == ToLower(s[i])
  {
    if |s| == 0 then [] else [ToLower(s[0])] + LowerString(s[1..])
  }

  lemma LowerStringAppend(a: string, b: string)
    ensures LowerString(a + b) == LowerString(a) + LowerString(b)
  {
  }

  /** Every character is in `[a-z0-9]`. */
  predicate IsLowerWord(s: string)
  {
    forall i :: 0 <= i < |s| ==> IsLowerOrDigit(s[i])
  }

  /** Every character is in `[A-Za-z0-9]`. */
  predicate IsAlnumWord(s: string)
  {
    forall i :: 0 <= i < |s| ==> IsAlnum(s[i])
  }

  lemma LowerWordIsFixed(s: string)
    requires IsLowerWord(s)
    ensures LowerString(s) == s
  {
  }

  /** The ASCII letters and digits of `s`, in order. */
  function AlnumOnly(s: string): (r: string)
    ensures IsAlnumWord(r)
    ensures |r| <= |s|
  {
    if |s| == 0 then []
    else if IsAlnum(s[0]) then [s[0]] + AlnumOnly(s[1..])
    else AlnumOnly(s[1..])
  }

  lemma AlnumOnlyCons(s: string)
    requires |s| > 0
    ensures AlnumOnly(s) == (if IsAlnum(s[0]) then [s[0]] else []) + AlnumOnly(s[1..])
  {
  }

  lemma AlnumOnlyAppend(a: string, b: string)
    ensures AlnumOnly(a + b) == AlnumOnly(a) + AlnumOnly(b)
  {
    if |a| == 0 {
      assert a + b == b;
    } else {
      assert (a + b)[1..] == a[1..] + b;
      AlnumOnlyAppend(a[1..], b);
    }
  }

  lemma AlnumOnlyOfAlnumWord(s: string)
    requires IsAlnumWord(s)
    ensures AlnumOnly(s) == s
  {
  }

  lemma {:induction false} RemoveSpacesAppend(a: string, b: string)
    ensures RemoveSpaces(a + b) == RemoveSpaces(a) + RemoveSpaces(b)
  {
    if |a| == 0 {
      assert a + b == b;
    } else {
      assert (a + b)[1..] == a[1..] + b;
      RemoveSpacesAppend(a[1..], b);
    }
  }

  /** `s` with every character of `\s` removed. */
  function RemoveSpaces(s: string): (r: string)
    ensures |r| <= |s|
    ensures forall i :: 0 <= i < |r| ==> !IsSpace(r[i])
  {
    if |s| == 0 then []
    else if IsSpace(s[0]) then RemoveSpaces(s[1..])
    else [s[0]] + RemoveSpaces(s[1..])
  }
}

=== FILE: dot_examples.dfy ===
/** The dot.case examples, and the acronym example on which the guarded and
    the unguarded camelCase converters part ways. */
module DotExamples {
  import opened Chars
  import opened Passes
  import opened WordSplit
  import opened Scan
  import opened Tokenizer
  import opened TokenFacts
  import opened Render
  import opened JsValues
  import opened Seqs
  import opened Examples
  import Refined
  import FewShot

  /** Two capitalised words run together, the first of at least two
      characters, are two tokens. */
  lemma TwoCapitalized(v: string, w: string, splitAcronyms: bool)
    requires |v| >= 2 && IsLowerWord(v) && |w| > 0 && IsLowerWord(w) && IsLower(w[0])
    ensures Tokens(Capitalize(v) + Capitalize(w), splitAcronyms) == [v, w]
  {
    var cv := Capitalize(v);
    assert cv[|cv| - 1] == v[|v| - 1];
    CapitalizeLetterHead(w);
    CapitalJunction(cv, Capitalize(w), splitAcronyms);
    CapitalizedIsOneToken(v, splitAcronyms);
    CapitalizedIsOneToken(w, splitAcronyms);
    Pair(v, w);
  }

  /** A capitalised word starts with a capital when its first character is a
      lower-case letter. */
  lemma CapitalizeLetterHead(w: string)
    requires |w| > 0 && IsLowerWord(w)
    ensures IsLower(w[0]) ==> IsUpper(Capitalize(w)[0])
  {
  }

  /** `PascalCase` text, a separator, then two lower-case words. */
  lemma PascalThenWords(v: string, w: string, s1: string, b: string, s2: string, d: string,
                        splitAcronyms: bool)
    requires |v| >= 2 && IsLowerWord(v) && |w| > 0 && IsLowerWord(w) && IsLower(w[0])
    requires |b| > 0 && IsLowerWord(b) && |d| > 0 && IsLowerWord(d)
    requires |s1| > 0 && forall i :: 0 <= i < |s1| ==> IsSeparator(s1[i])
    requires |s2| > 0 && forall i :: 0 <= i < |s2| ==> IsSeparator(s2[i])
    ensures Tokens(Capitalize(v) + Capitalize(w) + s1 + b + s2 + d, splitAcronyms) == [v, w, b, d]
  {
    var x := Capitalize(v) + Capitalize(w);
    assert |Capitalize(w)| > 0;
    TwoCapitalized(v, w, splitAcronyms);
    TwoLowerWords(b, s2, d, splitAcronyms);
    AroundSeparator(x, s1, b + s2 + d, splitAcronyms);
    Regroup(x + s1, b + s2, d);
    Regroup(x + s1, b, s2);
    PairPair(v, w, b, d);
  }

  /** `toDotCase('FirstName last-name')` is `'first.name.last.name'`. */
  lemma DotFirstNameLastName(s: string)
    requires s == "First" + "Name" + " " + "last" + "-" + "name"
    ensures Refined.ToDotCase(Str(s)) == Ok("first.name.last.name")
  {
    CapitalizeFirstName();
    PascalThenWords("first", "name", " ", "last", "-", "name", true);
    Refined.DotCaseIsJoin(Str(s));
    FirstNameLastNameJoined();
  }

  lemma CapitalizeFirstName()
    ensures Capitalize("first") == "First" && Capitalize("name") == "Name"
  {
  }

  lemma FirstNameLastNameJoined()
    ensures Join(["first", "name", "last", "name"], '.') == "first.name.last.name"
  {
    JoinOfFour("first", "name", "last", "name", '.');
  }

  /** `toDotCase('user_id')` is `'user.id'`. */
  lemma DotUserId(s: string)
    requires s == "user" + "_" + "id"
    ensures Refined.ToDotCase(Str(s)) == Ok("user.id")
  {
    TwoLowerWords("user", "_", "id", true);
    Refined.DotCaseIsJoin(Str(s));
    UserIdJoined();
  }

  lemma UserIdJoined()
    ensures Join(["user", "id"], '.') == "user.id"
  {
    JoinOfTwo("user", "id", '.');
  }

  /** With the acronym rule, a run of capitals before a capitalised word is a
      token of its own. */
  lemma AcronymJunction(a: string, w: string)
    requires |a| > 0 && forall i :: 0 <= i < |a| ==> IsUpper(a[i])
    requires |w| >= 2 && IsLowerWord(w) && IsLower(w[0])
    ensures Tokens(a + Capitalize(w), true) == [LowerString(a), w]
  {
    var c := Capitalize(w);
    AcronymBoundaryAt(a, w);
    TokensSplit(a, c, true);
    CapitalsAreOneToken(a, true);
    CapitalizedIsOneToken(w, true);
    Pair(LowerString(a), w);
  }

  lemma AcronymBoundaryAt(a: string, w: string)
    requires |a| > 0 && forall i :: 0 <= i < |a| ==> IsUpper(a[i])
    requires |w| >= 2 && IsLowerWord(w) && IsLower(w[0])
    ensures var c := Capitalize(w);
      && |c| > 0 && LookaheadSafe(a, c, true)
      && |a + c| > |a| + 1 && BoundaryBefore(a + c, |a|, true, true)
  {
    var c := Capitalize(w);
    var s := a + c;
    assert s[|a| - 1] == a[|a| - 1] && s[|a|] == c[0] && s[|a| + 1] == w[1];
    assert AcronymBoundary(s[|a| - 1], s[|a|], s[|a| + 1]);
  }

  /** `a` followed by a capitalised word ends as the word does. */
  lemma EndsAsWord(a: string, v: string)
    requires |v| >= 2 && IsLowerWord(v)
    ensures var x := a + Capitalize(v); |x| > 0 && IsLowerOrDigit(x[|x| - 1])
  {
    var x := a + Capitalize(v);
    assert x[|x| - 1] == v[|v| - 1];
  }

  /** An acronym followed by two capitalised words: three tokens with the
      acronym rule. */
  lemma AcronymThenPascal(a: string, v: string, w: string)
    requires |a| > 0 && forall i :: 0 <= i < |a| ==> IsUpper(a[i])
    requires |v| >= 2 && IsLowerWord(v) && IsLower(v[0])
    requires |w| > 0 && IsLowerWord(w) && IsLower(w[0])
    ensures Tokens(a + Capitalize(v) + Capitalize(w), true) == [LowerString(a), v, w]
  {
    var x := a + Capitalize(v);
    EndsAsWord(a, v);
    CapitalizeLetterHead(w);
    AcronymJunction(a, v);
    CapitalJunction(x, Capitalize(w), true);
    CapitalizedIsOneToken(w, true);
    PairThenOne(LowerString(a), v, w);
  }

  /** Capitals then a capitalised word hold no case boundary. */
  lemma NoCaseBoundaryAfterCapitals(a: string, v: string)
    requires forall i :: 0 <= i < |a| ==> IsUpper(a[i])
    requires |v| > 0 && IsLowerWord(v) && IsLower(v[0])
    ensures var x := a + Capitalize(v);
      && IsAlnumWord(x)
      && forall i :: 0 < i < |x| ==> !BoundaryBefore(x, i, true, false)
  {
    var x := a + Capitalize(v);
    forall i | 0 <= i < |x|
      ensures IsAlnum(x[i]) && (i > |a| ==> x[i] == v[i - |a|])
    {
    }
  }

  /** Without the acronym rule, the capitals run into the word after them. */
  lemma MergedAcronym(a: string, v: string, w: string)
    requires |a| > 0 && forall i :: 0 <= i < |a| ==> IsUpper(a[i])
    requires |v| >= 2 && IsLowerWord(v) && IsLower(v[0])
    requires |w| > 0 && IsLowerWord(w) && IsLower(w[0])
    ensures Tokens(a + Capitalize(v) + Capitalize(w), false) == [LowerString(a) + v, w]
  {
    var cv := Capitalize(v);
    var x := a + cv;
    NoCaseBoundaryAfterCapitals(a, v);
    OneToken(x, false);
    LowerStringAppend(a, cv);
    EndsAsWord(a, v);
    CapitalizeLetterHead(w);
    CapitalJunction(x, Capitalize(w), false);
    CapitalizedIsOneToken(w, false);
    Pair(LowerString(a) + v, w);
  }

  /** `toDotCase('XMLHttpRequest')` is `'xml.http.request'`, and the guarded
      `toCamelCase` gives `'xmlHttpRequest'`. */
  lemma DotXmlHttpRequest(s: string)
    requires s == "XML" + "Http" + "Request"
    ensures Refined.ToDotCase(Str(s)) == Ok("xml.http.request")
    ensures Refined.ToCamelCase(Str(s)) == Ok("xmlHttpRequest")
  {
    CapitalizeHttpRequest();
    AcronymThenPascal("XML", "http", "request");
    LowerXml();
    Refined.DotCaseIsJoin(Str(s));
    Refined.CamelCaseIsRendering(Str(s));
    XmlHttpRequestJoined();
    XmlHttpRequestRendered();
  }

  /** The unguarded `toCamelCase` has no acronym pass: `'XMLHttpRequest'`
      becomes `'xmlhttpRequest'`. */
  lemma FewShotXmlHttpRequest(s: string)
    requires s == "XML" + "Http" + "Request"
    ensures FewShot.ToCamelCase(Str(s)) == "xmlhttpRequest"
  {
    CapitalizeHttpRequest();
    MergedAcronym("XML", "http", "request");
    LowerXmlHttp();
    FewShot.FewShotIsRendering(Str(s));
    XmlhttpRequestRendered();
  }

  lemma CapitalizeHttpRequest()
    ensures Capitalize("http") == "Http" && Capitalize("request") == "Request"
  {
  }

  lemma LowerXml()
    ensures LowerString("XML") == "xml"
  {
  }

  lemma LowerXmlHttp()
    ensures LowerString("XML") + "http" == "xmlhttp"
  {
    LowerXml();
  }

  lemma XmlHttpRequestJoined()
    ensures Join(["xml", "http", "request"], '.') == "xml.http.request"
  {
    JoinOfThree("xml", "http", "request", '.');
  }

  lemma XmlHttpRequestRendered()
    ensures Camel(["xml", "http", "request"]) == "xmlHttpRequest"
  {
    CamelOfThree("xml", "http", "request");
    CapitalizeHttpRequest();
  }

  lemma XmlhttpRequestRendered()
    ensures Camel(["xmlhttp", "request"]) == "xmlhttpRequest"
  {
    CamelOfTwo("xmlhttp", "request");
    CapitalizeHttpRequest();
  }

  /** `XMLHttp` becomes `xmlHttp`: the acronym pass splits before the last
      capital of `XMLH`. */
  lemma CamelXmlHttp(s: string)
    requires s == "XML" + "Http"
    ensures Refined.ToCamelCase(Str(s)) == Ok("xmlHttp")
  {
    CapitalizeHttpRequest();
    AcronymJunction("XML", "http");
    LowerXml();
    Refined.CamelCaseIsRendering(Str(s));
    XmlHttpRendered();
  }

  lemma XmlHttpRendered()
    ensures Camel(["xml", "http"]) == "xmlHttp"
  {
    CamelOfTwo("xml", "http");
    CapitalizeHttpRequest();
  }

  /** A run of capitals followed by nothing is never split: `ID` is one
      token. */
  lemma IdIsOneToken(s: string)
    requires s == "ID"
    ensures Refined.ToDotCase(Str(s)) == Ok("id")
    ensures Refined.ToCamelCase(Str(s)) == Ok("id")
  {
    CapitalsAreOneToken(s, true);
    LowerId();
    Refined.DotCaseIsJoin(Str(s));
    Refined.CamelCaseIsRendering(Str(s));
    CamelSingle("id");
  }

  lemma LowerId()
    ensures LowerString("ID") == "id"
  {
  }

  /** The acronym pass also fires when a digit follows the run of capitals:
      `MP3` becomes `M P3`, so its dot.case form is `m.p3`. */
  lemma AcronymBeforeDigit(s: string)
    requires s == "M" + "P3"
    ensures Refined.ToDotCase(Str(s)) == Ok("m.p3")
    ensures Refined.ToCamelCase(Str(s)) == Ok("mP3")
  {
    CapitalizeP3();
    AcronymJunction("M", "p3");
    LowerM();
    Refined.DotCaseIsJoin(Str(s));
    Refined.CamelCaseIsRendering(Str(s));
    MP3Rendered();
  }

  lemma CapitalizeP3()
    ensures Capitalize("p3") == "P3"
  {
  }

  lemma LowerM()
    ensures LowerString("M") == "m"
  {
  }

  lemma MP3Rendered()
    ensures Join(["m", "p3"], '.') == "m.p3"
    ensures Camel(["m", "p3"]) == "mP3"
  {
    JoinOfTwo("m", "p3", '.');
    CamelOfTwo("m", "p3");
    CapitalizeP3();
  }
}

=== FILE: examples.dfy ===
/** The worked examples of the sources' documentation, proved from the
    general lemmas. Each input is written as the pieces the proof takes it
    apart into; the string is the same. */
module Examples {
  import opened Chars
  import opened Passes
  import opened WordSplit
  import opened Tokenizer
  import opened TokenFacts
  import opened Render
  import opened Joins
  import opened JsValues
  import opened Seqs
  import Refined
  import Chain
  import FewShot

  /** Two tokens around a run of separators. */
  lemma AroundSeparator(a: string, sep: string, b: string, splitAcronyms: bool)
    requires |a| > 0 && |b| > 0
    requires |sep| > 0 && forall i :: 0 <= i < |sep| ==> IsSeparator(sep[i])
    ensures Tokens(a + sep + b, splitAcronyms) == Tokens(a, splitAcronyms) + Tokens(b, splitAcronyms)
  {
    SeparatorSplit(a, sep + b, splitAcronyms);
    SeparatorSplit(sep, b, splitAcronyms);
    NoTokens(sep, splitAcronyms);
    Regroup(a, sep, b);
    AppendNil([], Tokens(b, splitAcronyms));
  }

  lemma TwoLowerWords(a: string, sep: string, b: string, splitAcronyms: bool)
    requires |a| > 0 && IsLowerWord(a) && |b| > 0 && IsLowerWord(b)
    requires |sep| > 0 && forall i :: 0 <= i < |sep| ==> IsSeparator(sep[i])
    ensures Tokens(a + sep + b, splitAcronyms) == [a, b]
  {
    AroundSeparator(a, sep, b, splitAcronyms);
    LowerWordIsOneToken(a, splitAcronyms);
    LowerWordIsOneToken(b, splitAcronyms);
    Pair(a, b);
  }

  lemma CamelOfTwo(a: string, b: string)
    ensures Camel([a, b]) == a + Capitalize(b)
  {
    assert [a, b][1..] == [b];
    assert CapitalizeAll([b]) == [Capitalize(b)];
    ConcatSingle(Capitalize(b));
  }

  /** Two runs of capitals around separators. */
  lemma TwoCapitalWords(a: string, sep: string, b: string, splitAcronyms: bool)
    requires |a| > 0 && (forall i :: 0 <= i < |a| ==> IsUpper(a[i]))
    requires |b| > 0 && (forall i :: 0 <= i < |b| ==> IsUpper(b[i]))
    requires |sep| > 0 && forall i :: 0 <= i < |sep| ==> IsSeparator(sep[i])
    ensures Tokens(a + sep + b, splitAcronyms) == [LowerString(a), LowerString(b)]
  {
    AroundSeparator(a, sep, b, splitAcronyms);
    CapitalsAreOneToken(a, splitAcronyms);
    CapitalsAreOneToken(b, splitAcronyms);
    Pair(LowerString(a), LowerString(b));
  }

  /** Two lower-case words around separators render, in both camelCase
      converters, as the first word followed by the second, capitalised. */
  lemma CamelOfTwoLowerWords(a: string, sep: string, b: string)
    requires |a| > 0 && IsLowerWord(a) && |b| > 0 && IsLowerWord(b)
    requires |sep| > 0 && forall i :: 0 <= i < |sep| ==> IsSeparator(sep[i])
    ensures BothCamel(a + sep + b, a + Capitalize(b))
  {
    TwoLowerWords(a, sep, b, true);
    TwoLowerWords(a, sep, b, false);
    BothCamelOfTokens(a + sep + b, [a, b]);
    CamelOfTwo(a, b);
  }

  /** Two runs of capitals around separators render, in both camelCase
      converters, lower-cased with the second capitalised. */
  lemma CamelOfTwoCapitalWords(a: string, sep: string, b: string)
    requires |a| > 0 && (forall i :: 0 <= i < |a| ==> IsUpper(a[i]))
    requires |b| > 0 && (forall i :: 0 <= i < |b| ==> IsUpper(b[i]))
    requires |sep| > 0 && forall i :: 0 <= i < |sep| ==> IsSeparator(sep[i])
    ensures BothCamel(a + sep + b, LowerString(a) + Capitalize(LowerString(b)))
  {
    TwoCapitalWords(a, sep, b, true);
    TwoCapitalWords(a, sep, b, false);
    BothCamelOfTokens(a + sep + b, [LowerString(a), LowerString(b)]);
    CamelOfTwo(LowerString(a), LowerString(b));
  }

  /** `toCamelCase('first name')` is `'firstName'`, guarded or not. */
  lemma CamelFirstName(s: string)
    requires s == "first" + " " + "name"
    ensures BothCamel(s, "firstName")
  {
    CamelOfTwoLowerWords("first", " ", "name");
    FirstNameRendered();
  }

  /** `toCamelCase('user_id')` is `'userId'`, guarded or not. */
  lemma CamelUserId(s: string)
    requires s == "user" + "_" + "id"
    ensures BothCamel(s, "userId")
  {
    CamelOfTwoLowerWords("user", "_", "id");
    UserIdRendered();
  }

  /** `toCamelCase('SCREEN_NAME')` is `'screenName'`, guarded or not. */
  lemma CamelScreenName(s: string)
    requires s == "SCREEN" + "_" + "NAME"
    ensures BothCamel(s, "screenName")
  {
    CamelOfTwoCapitalWords("SCREEN", "_", "NAME");
    ScreenNameRendered();
  }

  /** `toCamelCase('mobile-number')` is `'mobileNumber'`, guarded or not. */
  lemma CamelMobileNumber(s: string)
    requires s == "mobile" + "-" + "number"
    ensures BothCamel(s, "mobileNumber")
  {
    CamelOfTwoLowerWords("mobile", "-", "number");
    MobileNumberRendered();
  }

  /** Both camelCase converters on tokens that need no acronym rule. */
  predicate BothCamel(s: string, out: string)
  {
    Refined.ToCamelCase(Str(s)) == Ok(out) && FewShot.ToCamelCase(Str(s)) == out
  }

  lemma BothCamelOfTokens(s: string, ts: seq<string>)
    requires Tokens(s, true) == ts && Tokens(s, false) == ts
    ensures BothCamel(s, Camel(ts))
  {
    Refined.CamelCaseIsRendering(Str(s));
    FewShot.FewShotIsRendering(Str(s));
  }

  /** A one-token word and three lower-case ones, between separators and
      padded with separators at both ends. */
  lemma PaddedFourTokens(pre: string, a: string, s1: string, b: string, s2: string, c: string,
                         s3: string, d: string, post: string, ta: string, splitAcronyms: bool)
    requires forall i :: 0 <= i < |pre| ==> IsSeparator(pre[i])
    requires forall i :: 0 <= i < |post| ==> IsSeparator(post[i])
    requires |s1| > 0 && forall i :: 0 <= i < |s1| ==> IsSeparator(s1[i])
    requires |s2| > 0 && forall i :: 0 <= i < |s2| ==> IsSeparator(s2[i])
    requires |s3| > 0 && forall i :: 0 <= i < |s3| ==> IsSeparator(s3[i])
    requires |a| > 0 && Tokens(a, splitAcronyms) == [ta]
    requires |b| > 0 && IsLowerWord(b)
    requires |c| > 0 && IsLowerWord(c) && |d| > 0 && IsLowerWord(d)
    ensures Tokens(pre + a + s1 + b + s2 + c + s3 + d + post, splitAcronyms) == [ta, b, c, d]
  {
    var first := pre + a;
    AroundSeparators(pre, a, [], splitAcronyms);
    AppendNil(first, []);
    var l2 := first + s1 + b;
    AroundSeparator(first, s1, b, splitAcronyms);
    LowerWordIsOneToken(b, splitAcronyms);
    var l3 := l2 + s2 + c;
    AroundSeparator(l2, s2, c, splitAcronyms);
    LowerWordIsOneToken(c, splitAcronyms);
    var l4 := l3 + s3 + d;
    AroundSeparator(l3, s3, d, splitAcronyms);
    LowerWordIsOneToken(d, splitAcronyms);
    AroundSeparators([], l4, post, splitAcronyms);
    AppendNil([], l4);
    Four(ta, b, c, d);
  }

  lemma PaddedCapitalizedFour(pre: string, w: string, s1: string, b: string, s2: string, c: string,
                              s3: string, d: string, post: string, splitAcronyms: bool)
    requires forall i :: 0 <= i < |pre| ==> IsSeparator(pre[i])
    requires forall i :: 0 <= i < |post| ==> IsSeparator(post[i])
    requires |s1| > 0 && forall i :: 0 <= i < |s1| ==> IsSeparator(s1[i])
    requires |s2| > 0 && forall i :: 0 <= i < |s2| ==> IsSeparator(s2[i])
    requires |s3| > 0 && forall i :: 0 <= i < |s3| ==> IsSeparator(s3[i])
    requires |w| > 0 && IsLowerWord(w) && |b| > 0 && IsLowerWord(b)
    requires |c| > 0 && IsLowerWord(c) && |d| > 0 && IsLowerWord(d)
    ensures Tokens(pre + Capitalize(w) + s1 + b + s2 + c + s3 + d + post, splitAcronyms) == [w, b, c, d]
  {
    CapitalizedIsOneToken(w, splitAcronyms);
    PaddedFourTokens(pre, Capitalize(w), s1, b, s2, c, s3, d, post, w, splitAcronyms);
  }

  lemma PaddedLowerFour(pre: string, a: string, s1: string, b: string, s2: string, c: string,
                        s3: string, d: string, post: string, splitAcronyms: bool)
    requires forall i :: 0 <= i < |pre| ==> IsSeparator(pre[i])
    requires forall i :: 0 <= i < |post| ==> IsSeparator(post[i])
    requires |s1| > 0 && forall i :: 0 <= i < |s1| ==> IsSeparator(s1[i])
    requires |s2| > 0 && forall i :: 0 <= i < |s2| ==> IsSeparator(s2[i])
    requires |s3| > 0 && forall i :: 0 <= i < |s3| ==> IsSeparator(s3[i])
    requires |a| > 0 && IsLowerWord(a) && |b| > 0 && IsLowerWord(b)
    requires |c| > 0 && IsLowerWord(c) && |d| > 0 && IsLowerWord(d)
    ensures Tokens(pre + a + s1 + b + s2 + c + s3 + d + post, splitAcronyms) == [a, b, c, d]
  {
    LowerWordIsOneToken(a, splitAcronyms);
    PaddedFourTokens(pre, a, s1, b, s2, c, s3, d, post, a, splitAcronyms);
  }

  lemma JoinOfTwo(a: string, b: string, c: char)
    ensures Join([a, b], c) == a + [c] + b
  {
    assert [a, b][1..] == [b];
  }

  lemma JoinOfThree(a: string, b: string, d: string, c: char)
    ensures Join([a, b, d], c) == a + [c] + b + [c] + d
  {
    assert [a, b, d][1..] == [b, d];
    JoinOfTwo(b, d, c);
    Regroup(a + [c], b + [c], d);
    Regroup(a + [c], b, [c]);
  }

  lemma JoinOfFour(a: string, b: string, d: string, e: string, c: char)
    ensures Join([a, b, d, e], c) == a + [c] + b + [c] + d + [c] + e
  {
    assert [a, b, d, e][1..] == [b, d, e];
    JoinOfThree(b, d, e, c);
    Regroup(a + [c], b + [c] + d + [c], e);
    Regroup(a + [c], b + [c] + d, [c]);
    Regroup(a + [c], b + [c], d);
    Regroup(a + [c], b, [c]);
  }

  /** A lower-case word followed by two capitalised ones. */
  lemma ThreeCamelWords(a: string, b: string, c: string, splitAcronyms: bool)
    requires |a| > 0 && IsLowerWord(a) && |b| > 0 && IsLowerWord(b) && |c| > 0 && IsLowerWord(c)
    requires IsLower(b[0]) && IsLower(c[0]) && |b| >= 2
    ensures Tokens(a + Capitalize(b) + Capitalize(c), splitAcronyms) == [a, b, c]
  {
    var ts := [a, b, c];
    assert Recoverable(ts);
    CamelRoundTrip(ts, splitAcronyms);
    CamelOfThree(a, b, c);
  }

  lemma CamelOfThree(a: string, b: string, c: string)
    ensures Camel([a, b, c]) == a + Capitalize(b) + Capitalize(c)
  {
    assert [a, b, c][1..] == [b, c];
    assert CapitalizeAll([b, c]) == [Capitalize(b), Capitalize(c)];
    ConcatPair(Capitalize(b), Capitalize(c));
    Regroup(a, Capitalize(b), Capitalize(c));
  }

  /** `"hello world"` becomes `"helloWorld"`. */
  lemma BasicHelloWorld(s: string)
    requires s == "hello" + " " + "world"
    ensures BothCamel(s, "helloWorld")
  {
    TwoLowerWords("hello", " ", "world", true);
    TwoLowerWords("hello", " ", "world", false);
    BothCamelOfTokens(s, ["hello", "world"]);
    HelloWorldRendered();
  }

  /** `"  Foo-bar_baz.qux "` becomes `"fooBarBazQux"`. */
  lemma BasicFooBarBazQux(s: string)
    requires s == "  " + "Foo" + "-" + "bar" + "_" + "baz" + "." + "qux" + " "
    ensures BothCamel(s, "fooBarBazQux")
  {
    CapitalizeFoo();
    PaddedCapitalizedFour("  ", "foo", "-", "bar", "_", "baz", ".", "qux", " ", true);
    PaddedCapitalizedFour("  ", "foo", "-", "bar", "_", "baz", ".", "qux", " ", false);
    BothCamelOfTokens(s, ["foo", "bar", "baz", "qux"]);
    FooBarBazQuxRendered();
  }

  /** `"alreadyCamelCase"` is left as it is. */
  lemma BasicAlreadyCamelCase(s: string)
    requires s == "already" + "Camel" + "Case"
    ensures BothCamel(s, "alreadyCamelCase")
  {
    CapitalizeCamelCase();
    ThreeCamelWords("already", "camel", "case", true);
    ThreeCamelWords("already", "camel", "case", false);
    BothCamelOfTokens(s, ["already", "camel", "case"]);
    AlreadyCamelCaseRendered();
  }

  lemma AlreadyCamelCaseRendered()
    ensures Camel(["already", "camel", "case"]) == "alreadyCamelCase"
  {
    CamelOfThree("already", "camel", "case");
    CapitalizeCamelCase();
  }

  lemma HelloWorldRendered()
    ensures Camel(["hello", "world"]) == "helloWorld"
  {
    CamelOfTwo("hello", "world");
  }

  lemma CapitalizeFoo()
    ensures Capitalize("foo") == "Foo"
  {
  }

  lemma FooBarBazQuxRendered()
    ensures Camel(["foo", "bar", "baz", "qux"]) == "fooBarBazQux"
  {
    CamelOfFour("foo", "bar", "baz", "qux");
    CapitalizeBarBazQux();
  }

  lemma CapitalizeBarBazQux()
    ensures Capitalize("bar") == "Bar" && Capitalize("baz") == "Baz" && Capitalize("qux") == "Qux"
  {
  }

  lemma CamelOfFour(a: string, b: string, c: string, d: string)
    ensures Camel([a, b, c, d]) == a + Capitalize(b) + Capitalize(c) + Capitalize(d)
  {
    var caps := [Capitalize(b), Capitalize(c), Capitalize(d)];
    assert [a, b, c, d][1..] == [b, c, d];
    assert CapitalizeAll([b, c, d]) == caps;
    assert caps == [caps[0]] + [caps[1], caps[2]];
    ConcatAppend([caps[0]], [caps[1], caps[2]]);
    ConcatSingle(caps[0]);
    ConcatPair(caps[1], caps[2]);
    Regroup(a, caps[0], caps[1] + caps[2]);
    Regroup(a + caps[0], caps[1], caps[2]);
  }

  lemma CapitalizeCamelCase()
    ensures Capitalize("camel") == "Camel" && Capitalize("case") == "Case"
  {
  }

  lemma FirstNameRendered()
    ensures "first" + Capitalize("name") == "firstName"
  {
  }

  lemma UserIdRendered()
    ensures "user" + Capitalize("id") == "userId"
  {
  }

  lemma ScreenNameRendered()
    ensures LowerString("SCREEN") + Capitalize(LowerString("NAME")) == "screenName"
  {
    LowerScreenName();
  }

  lemma LowerScreenName()
    ensures LowerString("SCREEN") == "screen" && LowerString("NAME") == "name"
  {
  }

  lemma MobileNumberRendered()
    ensures "mobile" + Capitalize("number") == "mobileNumber"
  {
  }
}

=== FILE: fewshot.dfy ===
/** The unguarded `toCamelCase` of the few-shot module: no type check, no
    acronym pass. Anything but null and undefined is converted through
    `String(input)`. */
module FewShot {
  import opened Chars
  import opened Passes
  import opened WordSplit
  import opened Tokenizer
  import opened TokenFacts
  import opened Render
  import opened Joins
  import opened JsValues
  import opened Seqs
  import Refined

  /** No value is refused: null and undefined give `''`, and everything else
      converts, to `''` exactly when `String(input)` has no ASCII letter or
      digit. */
  function ToCamelCase(input: Input): (r: string)
    ensures IsNullish(input) ==> r == ""
    ensures !IsNullish(input) ==> (r == "" <==> AlnumOnly(Stringify(input)) == "")
  {
    if IsNullish(input) then ""
    else
      var s := Trim(Stringify(input));
      var parts := Tokens(s, false);
      TokenInvariants(s, false);
      TrimKeepsAlnum(Stringify(input));
      if |parts| == 0 then "" else Camel(parts)
  }

  /** The result is the rendering of the tokens of `String(input)`, found
      without the acronym rule. */
  lemma FewShotIsRendering(input: Input)
    requires !IsNullish(input)
    ensures ToCamelCase(input) == Camel(Tokens(Stringify(input), false))
  {
    TrimKeepsTokens(Stringify(input), false);
  }

  /** Whatever the input, the result holds only letters and digits, starts
      with a lower-case letter or digit, and lower-cases to the letters and
      digits of `String(input)`, lower-cased, in order. */
  lemma FewShotContents(input: Input)
    requires !IsNullish(input)
    ensures var out := ToCamelCase(input);
      && IsAlnumWord(out)
      && LowerString(out) == LowerString(AlnumOnly(Stringify(input)))
      && (out == "" <==> AlnumOnly(Stringify(input)) == "")
      && (|out| > 0 ==> IsLowerOrDigit(out[0]))
  {
    var s := Stringify(input);
    var ts := Tokens(s, false);
    FewShotIsRendering(input);
    TokenInvariants(s, false);
    CamelContents(ts);
    if |ts| > 0 {
      assert Camel(ts)[0] == ts[0][0];
    }
  }

  /** Re-tokenising the result gives the input's tokens back, and converting
      it again changes nothing, whenever the tokens are recoverable. */
  lemma FewShotRoundTrip(input: Input)
    requires !IsNullish(input)
    requires Recoverable(Tokens(Stringify(input), false))
    ensures Tokens(ToCamelCase(input), false) == Tokens(Stringify(input), false)
    ensures ToCamelCase(Str(ToCamelCase(input))) == ToCamelCase(input)
  {
    var ts := Tokens(Stringify(input), false);
    FewShotIsRendering(input);
    CamelRoundTrip(ts, false);
    RenderingIsFixed(ts);
  }

  /** Converting a rendering of recoverable tokens gives it back. */
  lemma RenderingIsFixed(ts: seq<string>)
    requires Recoverable(ts)
    ensures ToCamelCase(Str(Camel(ts))) == Camel(ts)
  {
    var out := Camel(ts);
    CamelRoundTrip(ts, false);
    FewShotIsRendering(Str(out));
  }

  /** On a string or number without two adjacent capitals the acronym pass
      has nothing to do, and the unguarded converter agrees with the guarded
      one. */
  lemma FewShotAgreesWithRefined(value: Input)
    requires Refined.Convertible(value)
    requires NoAdjacentCapitals(Stringify(value))
    ensures Refined.ToCamelCase(value) == Ok(ToCamelCase(value))
  {
    Refined.CamelCaseIsRendering(value);
    FewShotIsRendering(value);
    AcronymPassIdle(Stringify(value));
  }

  /** Where the guarded converter throws, the unguarded one converts the
      text `String(input)` gives. */
  lemma FewShotConvertsRejected(input: Input)
    requires !IsNullish(input) && !Refined.Convertible(input)
    ensures Refined.ToCamelCase(input).TypeError?
    ensures LowerString(ToCamelCase(input)) == LowerString(AlnumOnly(Stringify(input)))
  {
    FewShotContents(input);
  }
}

=== FILE: joins.dfy ===
/** The shape of `parts.join(sep)` over lower-case tokens, and the exchange of
    one separator character for another. */
module Joins {
  import opened Chars
  import opened Passes
  import opened WordSplit
  import opened Seqs

  /** Lower-case tokens joined by `c`: only `[a-z0-9]` and `c`, no `c` at
      either end, never two `c` in a row. */
  predicate Delimited(r: string, c: char)
  {
    && (forall i :: 0 <= i < |r| ==> IsLowerOrDigit(r[i]) || r[i] == c)
    && (|r| > 0 ==> r[0] != c && r[|r| - 1] != c)
    && NoDoubled(r, c)
  }

  /** Non-empty tokens made of `[a-z0-9]`. */
  predicate LowerTokens(ts: seq<string>)
  {
    forall k :: 0 <= k < |ts| ==> |ts[k]| > 0 && IsLowerWord(ts[k])
  }

  lemma JoinCons(w: string, ws: seq<string>, c: char)
    requires |ws| > 0
    ensures Join([w] + ws, c) == w + [c] + Join(ws, c)
  {
    assert ([w] + ws)[0] == w;
    assert ([w] + ws)[1..] == ws;
  }

  /** Joining lower-case tokens with a character outside `[a-z0-9]` is
      delimited, and empty exactly when there are no tokens. */
  lemma {:induction false} JoinDelimited(ts: seq<string>, c: char)
    requires !IsLowerOrDigit(c) && LowerTokens(ts)
    ensures Delimited(Join(ts, c), c)
    ensures |Join(ts, c)| == 0 <==> |ts| == 0
    decreases |ts|
  {
    if |ts| > 1 {
      JoinDelimited(ts[1..], c);
      DelimitedCons(ts[0], c, Join(ts[1..], c));
    }
  }

  lemma DelimitedCons(t: string, c: char, u: string)
    requires !IsLowerOrDigit(c)
    requires |t| > 0 && IsLowerWord(t)
    requires |u| > 0 && Delimited(u, c)
    ensures Delimited(t + [c] + u, c)
  {
    var r := t + [c] + u;
    forall i | 0 <= i < |r|
      ensures IsLowerOrDigit(r[i]) || r[i] == c
    {
      if i < |t| {
        assert r[i] == t[i];
      } else if i > |t| {
        assert r[i] == u[i - |t| - 1];
      }
    }
    forall i | 0 <= i < |r| - 1
      ensures !(r[i] == c && r[i + 1] == c)
    {
      if i + 1 < |t| {
        assert r[i + 1] == t[i + 1];
      } else if i + 1 == |t| {
        assert r[i] == t[i];
      } else if i == |t| {
        assert r[i + 1] == u[0];
      } else {
        assert r[i] == u[i - |t| - 1] && r[i + 1] == u[i - |t|];
      }
    }
    assert r[0] == t[0];
    assert r[|r| - 1] == u[|u| - 1];
  }

  /** Dropping the separators of a join leaves the tokens glued together. */
  lemma {:induction false} JoinAlnum(ts: seq<string>, c: char)
    requires IsSeparator(c) && LowerTokens(ts)
    ensures AlnumOnly(Join(ts, c)) == Concat(ts)
    decreases |ts|
  {
    if |ts| == 1 {
      AlnumOnlyOfAlnumWord(ts[0]);
      assert Concat(ts) == ts[0] + Concat([]);
      AppendNil(ts[0], []);
    } else if |ts| > 1 {
      JoinAlnum(ts[1..], c);
      AlnumOnlyAppend(ts[0] + [c], Join(ts[1..], c));
      AlnumOnlyAppend(ts[0], [c]);
      AlnumOnlyOfAlnumWord(ts[0]);
      assert AlnumOnly([c]) == [];
      AppendNil(ts[0], Concat(ts[1..]));
    }
  }

  /** `s` with every `a` replaced by `b`. */
  function Swap(s: string, a: char, b: char): (r: string)
    ensures |r| == |s|
    ensures forall i :: 0 <= i < |s| ==> r[i] == if s[i] == a then b else s[i]
  {
    if |s| == 0 then [] else [if s[0] == a then b else s[0]] + Swap(s[1..], a, b)
  }

  lemma SwapAppend(x: string, y: string, a: char, b: char)
    ensures Swap(x + y, a, b) == Swap(x, a, b) + Swap(y, a, b)
  {
  }

  lemma SwapAbsent(x: string, a: char, b: char)
    requires forall i :: 0 <= i < |x| ==> x[i] != a
    ensures Swap(x, a, b) == x
  {
  }

  /** Exchanging the separator of a join whose tokens do not contain it. */
  lemma {:induction false} SwapJoin(ts: seq<string>, a: char, b: char)
    requires forall k, i :: 0 <= k < |ts| && 0 <= i < |ts[k]| ==> ts[k][i] != a
    ensures Swap(Join(ts, a), a, b) == Join(ts, b)
    decreases |ts|
  {
    if |ts| == 1 {
      SwapAbsent(ts[0], a, b);
    } else if |ts| > 1 {
      SwapJoin(ts[1..], a, b);
      SwapAppend(ts[0] + [a], Join(ts[1..], a), a, b);
      SwapAppend(ts[0], [a], a, b);
      SwapAbsent(ts[0], a, b);
    }
  }

  /** A string of letters, digits and single inner spaces is the join of its
      words with a space. */
  lemma {:induction false} JoinWordsOfSpaced(x: string)
    requires Separated(x, ' ')
    requires |x| > 0 ==> x[0] != ' ' && x[|x| - 1] != ' '
    ensures Join(Words(x), ' ') == x
    decreases |x|
  {
    var i := Run(x, IsAlnum);
    forall j | 0 <= j < i
      ensures !IsSpace(x[j])
    {
      AlnumIsNotSpace(x[j]);
    }
    if i == |x| {
      if |x| > 0 {
        WordsOfWord(x);
      }
    } else {
      var w, rest := x[..i], x[i + 1..];
      assert x[i] == ' ' && 0 < i < |x| - 1;
      assert rest[0] == x[i + 1];
      assert x == w + [' '] + rest;
      WordsAppendSpace(w, ' ', rest);
      WordsOfWord(w);
      JoinWordsOfSpaced(rest);
      WordsNonEmpty(rest);
      JoinCons(w, Words(rest), ' ');
    }
  }
}

=== FILE: kebab_examples.dfy ===
/** The kebab-case examples the command-line demonstration lists, and how the
    three guards treat a boolean. The Unicode folding step is a parameter;
    each example states what it gives on that input. */
module KebabExamples {
  import opened Chars
  import opened Passes
  import opened WordSplit
  import opened Tokenizer
  import opened TokenFacts
  import opened Render
  import opened JsValues
  import opened Seqs
  import opened Examples
  import Chain
  import Refined
  import FewShot

  /** On a string the folding leaves alone, the result is its tokens joined
      by `-`. */
  lemma KebabOfUnfolded(s: string, fold: string -> string)
    requires fold(Trim(s)) == Trim(s)
    ensures Chain.ToKebabCase(Str(s), fold) == Ok(Join(Tokens(s, true), '-'))
  {
    Chain.KebabIsJoin(Str(s), fold);
    TrimKeepsTokens(s, true);
    if |Trim(s)| == 0 {
      assert Trim(s) == "";
    }
  }

  /** A string that starts with a letter or digit is not blank, so the result
      is the tokens of its folded form joined by `-`. */
  lemma KebabOfFolded(s: string, t: string, fold: string -> string)
    requires |s| > 0 && IsAlnum(s[0])
    requires fold(Trim(s)) == t
    ensures Chain.ToKebabCase(Str(s), fold) == Ok(Join(Tokens(t, true), '-'))
  {
    AlnumIsNotSpace(s[0]);
    assert Run(s, IsSpace) == 0;
    assert |Trim(s)| > 0;
    Chain.KebabIsJoin(Str(s), fold);
  }

  /** `toKebabCase('first name')` is `'first-name'`. */
  lemma KebabFirstName(s: string, fold: string -> string)
    requires s == "first" + " " + "name"
    requires fold(Trim(s)) == Trim(s)
    ensures Chain.ToKebabCase(Str(s), fold) == Ok("first-name")
  {
    TwoLowerWords("first", " ", "name", true);
    KebabOfUnfolded(s, fold);
    FirstNameJoined();
  }

  lemma FirstNameJoined()
    ensures Join(["first", "name"], '-') == "first-name"
  {
    JoinOfTwo("first", "name", '-');
  }

  /** `toKebabCase('user_id')` is `'user-id'`. */
  lemma KebabUserId(s: string, fold: string -> string)
    requires s == "user" + "_" + "id"
    requires fold(Trim(s)) == Trim(s)
    ensures Chain.ToKebabCase(Str(s), fold) == Ok("user-id")
  {
    TwoLowerWords("user", "_", "id", true);
    KebabOfUnfolded(s, fold);
    UserIdJoined();
  }

  lemma UserIdJoined()
    ensures Join(["user", "id"], '-') == "user-id"
  {
    JoinOfTwo("user", "id", '-');
  }

  /** `toKebabCase('SCREEN_NAME')` is `'screen-name'`. */
  lemma KebabScreenName(s: string, fold: string -> string)
    requires s == "SCREEN" + "_" + "NAME"
    requires fold(Trim(s)) == Trim(s)
    ensures Chain.ToKebabCase(Str(s), fold) == Ok("screen-name")
  {
    TwoCapitalWords("SCREEN", "_", "NAME", true);
    LowerScreenName();
    KebabOfUnfolded(s, fold);
    ScreenNameJoined();
  }

  lemma ScreenNameJoined()
    ensures Join(["screen", "name"], '-') == "screen-name"
  {
    JoinOfTwo("screen", "name", '-');
  }

  /** `toKebabCase('mobile-number')` is `'mobile-number'`. */
  lemma KebabMobileNumber(s: string, fold: string -> string)
    requires s == "mobile" + "-" + "number"
    requires fold(Trim(s)) == Trim(s)
    ensures Chain.ToKebabCase(Str(s), fold) == Ok("mobile-number")
  {
    TwoLowerWords("mobile", "-", "number", true);
    KebabOfUnfolded(s, fold);
    MobileNumberJoined();
  }

  lemma MobileNumberJoined()
    ensures Join(["mobile", "number"], '-') == "mobile-number"
  {
    JoinOfTwo("mobile", "number", '-');
  }

  /** `toKebabCase('  multiple--spaces_and.delimiters  ')` is
      `'multiple-spaces-and-delimiters'`. */
  lemma KebabMultipleDelimiters(s: string, fold: string -> string)
    requires s == "  " + "multiple" + "--" + "spaces" + "_" + "and" + "." + "delimiters" + "  "
    requires fold(Trim(s)) == Trim(s)
    ensures Chain.ToKebabCase(Str(s), fold) == Ok("multiple-spaces-and-delimiters")
  {
    PaddedLowerFour("  ", "multiple", "--", "spaces", "_", "and", ".", "delimiters", "  ", true);
    KebabOfUnfolded(s, fold);
    MultipleDelimitersJoined();
  }

  lemma MultipleDelimitersJoined()
    ensures Join(["multiple", "spaces", "and", "delimiters"], '-') == "multiple-spaces-and-delimiters"
  {
    JoinOfFour("multiple", "spaces", "and", "delimiters", '-');
  }

  /** `toKebabCase('camelCaseExample')` is `'camel-case-example'`. */
  lemma KebabCamelCaseExample(s: string, fold: string -> string)
    requires s == "camel" + "Case" + "Example"
    requires fold(Trim(s)) == Trim(s)
    ensures Chain.ToKebabCase(Str(s), fold) == Ok("camel-case-example")
  {
    CapitalizeCaseExample();
    ThreeCamelWords("camel", "case", "example", true);
    KebabOfUnfolded(s, fold);
    CamelCaseExampleJoined();
  }

  lemma CapitalizeCaseExample()
    ensures Capitalize("case") == "Case" && Capitalize("example") == "Example"
  {
  }

  lemma CamelCaseExampleJoined()
    ensures Join(["camel", "case", "example"], '-') == "camel-case-example"
  {
    JoinOfThree("camel", "case", "example", '-');
  }

  /** A capitalised word and a lower-case one around separators. */
  lemma CapitalizedThenLower(w: string, sep: string, b: string, splitAcronyms: bool)
    requires |w| > 0 && IsLowerWord(w) && |b| > 0 && IsLowerWord(b)
    requires |sep| > 0 && forall i :: 0 <= i < |sep| ==> IsSeparator(sep[i])
    ensures Tokens(Capitalize(w) + sep + b, splitAcronyms) == [w, b]
  {
    assert |Capitalize(w)| > 0;
    AroundSeparator(Capitalize(w), sep, b, splitAcronyms);
    CapitalizedIsOneToken(w, splitAcronyms);
    LowerWordIsOneToken(b, splitAcronyms);
    Pair(w, b);
  }

  /** `toKebabCase('Accented élève')` is `'accented-eleve'` when the folding
      strips the accents of `élève`. */
  lemma KebabAccented(s: string, fold: string -> string)
    requires s == "Accented" + " " + "élève"
    requires fold(Trim(s)) == "Accented" + " " + "eleve"
    ensures Chain.ToKebabCase(Str(s), fold) == Ok("accented-eleve")
  {
    CapitalizeAccented();
    CapitalizedThenLower("accented", " ", "eleve", true);
    KebabOfFolded(s, "Accented" + " " + "eleve", fold);
    AccentedJoined();
  }

  lemma CapitalizeAccented()
    ensures Capitalize("accented") == "Accented"
  {
  }

  lemma AccentedJoined()
    ensures Join(["accented", "eleve"], '-') == "accented-eleve"
  {
    JoinOfTwo("accented", "eleve", '-');
  }

  /** `toKebabCase('')` is `''`, and so is the result for whitespace-only
      text, null and undefined, whatever the fold does. */
  lemma KebabEmpty(s: string, fold: string -> string)
    requires forall i :: 0 <= i < |s| ==> IsSpace(s[i])
    ensures Chain.ToKebabCase(Str(s), fold) == Ok("")
    ensures Chain.ToKebabCase(Null, fold) == Ok("")
    ensures Chain.ToKebabCase(Undefined, fold) == Ok("")
  {
    assert Run(s, IsSpace) == |s|;
  }

  /** A value whose `String` form is one lower-case word that the folding
      leaves alone comes out as that word, in kebab-case and in the
      unguarded camelCase. */
  lemma OneWordValue(v: Input, w: string, fold: string -> string)
    requires Chain.KebabConvertible(v) && Stringify(v) == w
    requires |w| > 0 && IsLowerWord(w) && fold(w) == w
    ensures Chain.ToKebabCase(v, fold) == Ok(w)
    ensures FewShot.ToCamelCase(v) == w
  {
    AlnumIsNotSpace(w[0]);
    AlnumIsNotSpace(w[|w| - 1]);
    TrimUntouched(w);
    LowerWordIsOneToken(w, true);
    LowerWordIsOneToken(w, false);
    Chain.KebabIsJoin(v, fold);
    FewShot.FewShotIsRendering(v);
    CamelSingle(w);
  }

  lemma BooleanIsWord(b: bool)
    ensures |Stringify(Bool(b))| > 0 && IsLowerWord(Stringify(Bool(b)))
  {
  }

  /** `typeof` of a boolean is `'boolean'`: the guarded camelCase and
      dot.case converters throw, while the kebab-case converter, whose guard
      only refuses objects and functions, and the unguarded camelCase
      converter both give the text of the boolean. */
  lemma BooleanGuards(b: bool, fold: string -> string)
    requires fold(Stringify(Bool(b))) == Stringify(Bool(b))
    ensures Refined.ToCamelCase(Bool(b)) == TypeError(Refined.CamelTypeMessage)
    ensures Refined.ToDotCase(Bool(b)) == TypeError(Refined.DotTypeMessage)
    ensures Chain.ToKebabCase(Bool(b), fold) == Ok(Stringify(Bool(b)))
    ensures FewShot.ToCamelCase(Bool(b)) == Stringify(Bool(b))
  {
    BooleanIsWord(b);
    OneWordValue(Bool(b), Stringify(Bool(b)), fold);
  }
}

=== FILE: passes.dfy ===
/** The global `String.prototype.replace` passes the converters apply, each
    modelled as the regular-expression engine runs it: a left-to-right scan
    that tries a match at each position, takes the first (backtracking)
    match, splices in the replacement and resumes after the consumed text. */
module Passes {
  import opened Chars
  import opened Seqs

  predicate IsSeparator(c: char) { !IsAlnum(c) }

  predicate IsHyphen(c: char) { c == '-' }

  /** The length of the longest prefix of `s` whose characters satisfy `p`,
      i.e. what a greedy `[...]+` or `[...]*` consumes. */
  function Run(s: string, p: char -> bool): (n: nat)
    ensures n <= |s|
    ensures forall i :: 0 <= i < n ==> p(s[i])
    ensures n < |s| ==> !p(s[n])
  {
    if |s| > 0 && p(s[0]) then 1 + Run(s[1..], p) else 0
  }

  /** No two adjacent `c`. */
  predicate NoDoubled(s: string, c: char)
  {
    forall i :: 0 <= i < |s| - 1 ==> !(s[i] == c && s[i + 1] == c)
  }

  /** Every character is a letter, a digit or `c`. */
  predicate AlnumOr(s: string, c: char)
  {
    forall i :: 0 <= i < |s| ==> IsAlnum(s[i]) || s[i] == c
  }

  /** The shape the separator pass leaves: letters and digits, with single
      separators `c` between or around them. */
  predicate Separated(s: string, c: char)
  {
    AlnumOr(s, c) && NoDoubled(s, c)
  }

  /** `s.replace(/([a-z0-9])([A-Z])/g, '$1 $2')`: a match consumes a
      lower-case letter or digit and the capital after it. */
  function SplitCaseBoundaries(s: string): (r: string)
    ensures RemoveSpaces(r) == RemoveSpaces(s)
    decreases |s|
  {
    if |s| < 2 then s
    else if IsLowerOrDigit(s[0]) && IsUpper(s[1]) then
      assert s == [s[0], s[1]] + s[2..];
      RemoveSpacesAppend([s[0], ' ', s[1]], SplitCaseBoundaries(s[2..]));
      RemoveSpacesAppend([s[0], s[1]], s[2..]);
      [s[0], ' ', s[1]] + SplitCaseBoundaries(s[2..])
    else
      [s[0]] + SplitCaseBoundaries(s[1..])
  }

  /** Where `([A-Z]+)([A-Z][a-z0-9]+)` matches at the start of a string:
      group 1 is `s[..cut]`, the whole match `s[..end]`. */
  datatype AcronymMatch = NoMatch | Match(cut: nat, end: nat)

  /** The backtracking search for the acronym pattern at position 0, with
      group 1 `[A-Z]+` holding `k` capitals and giving one back per retry. */
  function TryAcronym(s: string, k: nat): (m: AcronymMatch)
    requires k <= Run(s, IsUpper)
    ensures var u := Run(s, IsUpper);
      m.Match? <==> u - 1 <= k && 2 <= u < |s| && IsLowerOrDigit(s[u])
    ensures var u := Run(s, IsUpper);
      m.Match? ==> m.cut == u - 1 && m.end == u + Run(s[u..], IsLowerOrDigit)
    decreases k
  {
    if k == 0 then NoMatch
    else if k < |s| && IsUpper(s[k]) && k + 1 < |s| && IsLowerOrDigit(s[k + 1]) then
      Match(k, k + 1 + Run(s[k + 1..], IsLowerOrDigit))
    else TryAcronym(s, k - 1)
  }

  /** The first attempt lets `[A-Z]+` take the whole run of capitals. The
      pattern matches exactly when that run has at least two capitals and is
      followed by a lower-case letter or digit; group 1 then gives back the
      run's last capital, and `[a-z0-9]+` takes the whole run after it. */
  function MatchAcronym(s: string): (m: AcronymMatch)
    ensures var u := Run(s, IsUpper);
      m.Match? <==> 2 <= u < |s| && IsLowerOrDigit(s[u])
    ensures var u := Run(s, IsUpper);
      m.Match? ==>
        && m.cut == u - 1
        && u < m.end <= |s|
        && m.end == u + Run(s[u..], IsLowerOrDigit)
  {
    TryAcronym(s, Run(s, IsUpper))
  }

  /** `s.replace(/([A-Z]+)([A-Z][a-z0-9]+)/g, '$1 $2')`. */
  function SplitAcronyms(s: string): (r: string)
    ensures RemoveSpaces(r) == RemoveSpaces(s)
    decreases |s|
  {
    if |s| == 0 then s
    else
      match MatchAcronym(s)
      case Match(cut, end) =>
        SplitThree(s, cut, end);
        RemoveSpacesInsert(s[..cut], s[cut..end], s[end..], SplitAcronyms(s[end..]));
        s[..cut] + " " + s[cut..end] + SplitAcronyms(s[end..])
      case NoMatch =>
        [s[0]] + SplitAcronyms(s[1..])
  }

  /** A space inserted between `p` and `q`, and a tail with the same
      non-space characters, leave the non-space characters alone. */
  lemma RemoveSpacesInsert(p: string, q: string, t: string, t': string)
    requires RemoveSpaces(t') == RemoveSpaces(t)
    ensures RemoveSpaces(p + " " + q + t') == RemoveSpaces(p + q + t)
  {
    RemoveSpacesAppend(p + " " + q, t');
    RemoveSpacesAppend(p + " ", q);
    RemoveSpacesAppend(p, " ");
    RemoveSpacesAppend(p + q, t);
    RemoveSpacesAppend(p, q);
    assert RemoveSpaces(" ") == [];
    AppendNil(RemoveSpaces(p), RemoveSpaces(q));
  }

  /** `s.replace(/[^A-Za-z0-9]+/g, sep)`: every maximal run of characters
      outside `[A-Za-z0-9]` becomes one `sep`. */
  function ReplaceSeparators(s: string, sep: char): (r: string)
    requires IsSeparator(sep)
    ensures Separated(r, sep)
    ensures |r| == 0 <==> |s| == 0
    ensures |s| > 0 ==> (r[0] == sep <==> IsSeparator(s[0]))
    ensures AlnumOnly(r) == AlnumOnly(s)
    decreases |s|
  {
    if |s| == 0 then []
    else if IsAlnum(s[0]) then
      [s[0]] + ReplaceSeparators(s[1..], sep)
    else
      var n := Run(s, IsSeparator);
      SeparatorRunHasNoAlnum(s, n);
      [sep] + ReplaceSeparators(s[n..], sep)
  }

  lemma {:induction false} SeparatorRunHasNoAlnum(s: string, n: nat)
    requires n <= |s|
    requires forall i :: 0 <= i < n ==> IsSeparator(s[i])
    ensures AlnumOnly(s) == AlnumOnly(s[n..])
    decreases n
  {
    if n > 0 {
      SeparatorRunHasNoAlnum(s[1..], n - 1);
      assert s[1..][n - 1..] == s[n..];
    }
  }

  /** `s` with every hyphen removed. */
  function RemoveHyphens(s: string): string
  {
    if |s| == 0 then []
    else if s[0] == '-' then RemoveHyphens(s[1..])
    else [s[0]] + RemoveHyphens(s[1..])
  }

  lemma {:induction false} HyphenRunRemoved(s: string, n: nat)
    requires n <= |s|
    requires forall i :: 0 <= i < n ==> s[i] == '-'
    ensures RemoveHyphens(s) == RemoveHyphens(s[n..])
    decreases n
  {
    if n > 0 {
      HyphenRunRemoved(s[1..], n - 1);
      assert s[1..][n - 1..] == s[n..];
    }
  }

  /** `s.replace(/-+/g, '-')`: no two hyphens are left together, the other
      characters are kept in order, and the result is empty, or starts with a
      hyphen, exactly when the input is or does. */
  function CollapseHyphens(s: string): (r: string)
    ensures NoDoubled(r, '-')
    ensures |r| == 0 <==> |s| == 0
    ensures |s| > 0 ==> (r[0] == '-' <==> s[0] == '-')
    ensures RemoveHyphens(r) == RemoveHyphens(s)
    decreases |s|
  {
    if |s| == 0 then []
    else if s[0] == '-' then
      var n := Run(s, IsHyphen);
      HyphenRunRemoved(s, n);
      ['-'] + CollapseHyphens(s[n..])
    else [s[0]] + CollapseHyphens(s[1..])
  }

  /** How far a greedy run reaches into a concatenation. */
  lemma {:induction false} RunAppend(a: string, b: string, p: char -> bool)
    ensures Run(a + b, p) == if Run(a, p) < |a| then Run(a, p) else |a| + Run(b, p)
    decreases |a|
  {
    if |a| == 0 {
      assert a + b == b;
    } else if p(a[0]) {
      RunAppend(a[1..], b, p);
      assert (a + b)[1..] == a[1..] + b;
    }
  }

  /** Collapsing works on the two sides of a junction separately, as long as
      no run of hyphens straddles it. */
  lemma {:induction false} CollapseAppend(a: string, b: string)
    requires !(|a| > 0 && |b| > 0 && a[|a| - 1] == '-' && b[0] == '-')
    ensures CollapseHyphens(a + b) == CollapseHyphens(a) + CollapseHyphens(b)
    decreases |a|
  {
    if |a| == 0 {
      assert a + b == b;
    } else {
      var n := if a[0] == '-' then Run(a, IsHyphen) else 1;
      var c := if a[0] == '-' then "-" else [a[0]];
      CollapseHead(a, n, c);
      CollapseStep(a, b, n, c);
      if n < |a| {
        LastOfDrop(a, n);
        CollapseAppend(a[n..], b);
        Regroup(c, CollapseHyphens(a[n..]), CollapseHyphens(b));
      } else {
        DropAll(a, b);
        AppendNil(c, []);
      }
    }
  }

  /** One step of collapsing: a hyphen run or a single other character at
      the front of `s` becomes `c`, and collapsing goes on after it. */
  lemma CollapseHead(s: string, n: nat, c: string)
    requires |s| > 0
    requires n == (if s[0] == '-' then Run(s, IsHyphen) else 1)
    requires c == if s[0] == '-' then "-" else [s[0]]
    ensures 0 < n <= |s|
    ensures CollapseHyphens(s) == c + CollapseHyphens(s[n..])
  {
  }

  /** The first step of collapsing `a` and of collapsing `a + b` emit the same
      text and continue at the same place. */
  lemma CollapseStep(a: string, b: string, n: nat, c: string)
    requires |a| > 0 && !(|b| > 0 && a[|a| - 1] == '-' && b[0] == '-')
    requires n == (if a[0] == '-' then Run(a, IsHyphen) else 1)
    requires c == if a[0] == '-' then "-" else [a[0]]
    requires 0 < n <= |a|
    ensures CollapseHyphens(a + b) == c + CollapseHyphens(a[n..] + b)
  {
    SameStep(a, b, n);
    DropFromAppend(a, b, n);
    CollapseHead(a + b, n, c);
  }

  lemma SameStep(a: string, b: string, n: nat)
    requires |a| > 0 && !(|b| > 0 && a[|a| - 1] == '-' && b[0] == '-')
    requires n == (if a[0] == '-' then Run(a, IsHyphen) else 1)
    ensures (a + b)[0] == a[0]
    ensures n == (if a[0] == '-' then Run(a + b, IsHyphen) else 1)
  {
    if a[0] == '-' {
      RunAppend(a, b, IsHyphen);
      if n == |a| && |b| > 0 {
        assert !IsHyphen(b[0]);
      }
    }
  }

  /** A non-empty run of hyphens collapses to one. */
  lemma HyphenRunCollapses(h: string)
    requires |h| > 0 && forall i :: 0 <= i < |h| ==> h[i] == '-'
    ensures CollapseHyphens(h) == "-"
  {
    assert Run(h, IsHyphen) == |h|;
    assert h[|h|..] == [];
  }

  /** A maximal run of hyphens becomes exactly one hyphen, and the text on
      either side of it collapses on its own. */
  lemma CollapseRun(p: string, h: string, q: string)
    requires |h| > 0 && forall i :: 0 <= i < |h| ==> h[i] == '-'
    requires |p| > 0 ==> p[|p| - 1] != '-'
    requires |q| > 0 ==> q[0] != '-'
    ensures CollapseHyphens(p + h + q) == CollapseHyphens(p) + "-" + CollapseHyphens(q)
  {
    CollapseAppend(h, q);
    CollapseAppend(p, h + q);
    HyphenRunCollapses(h);
    Regroup(p, h, q);
    Regroup(CollapseHyphens(p), "-", CollapseHyphens(q));
  }

  /** Collapsing is the identity on a string with no doubled hyphen. */
  lemma {:induction false} CollapseUndoubled(s: string)
    requires NoDoubled(s, '-')
    ensures CollapseHyphens(s) == s
    decreases |s|
  {
    if |s| > 0 {
      if s[0] == '-' {
        assert Run(s, IsHyphen) == 1 by {
          assert |s| > 1 ==> s[1] != '-';
        }
      }
      CollapseUndoubled(s[1..]);
    }
  }

  /** `s.replace(/^-|-$/g, '')`: at most one hyphen goes from each end. */
  function TrimHyphens(s: string): (r: string)
    ensures NoDoubled(s, '-') ==> |r| == 0 || (r[0] != '-' && r[|r| - 1] != '-')
    ensures |s| > 0 && s[0] != '-' && s[|s| - 1] != '-' ==> r == s
  {
    var a := if |s| > 0 && s[0] == '-' then s[1..] else s;
    if |a| > 0 && a[|a| - 1] == '-' then a[..|a| - 1] else a
  }
}

=== FILE: refined.dfy ===
/** The two guarded converters of the refined module: `toCamelCase` and
    `toDotCase`. Both return `''` for null and undefined, throw a `TypeError`
    for anything that is neither a string nor a number, trim, tokenise with
    both boundary passes, and render the tokens. */
module Refined {
  import opened Chars
  import opened Passes
  import opened WordSplit
  import opened Tokenizer
  import opened TokenFacts
  import opened Render
  import opened Joins
  import opened JsValues
  import opened Seqs

  const CamelTypeMessage := "toCamelCase: expected a string or number"
  const DotTypeMessage := "toDotCase: expected a string or number"

  /** A string or a number gets past the type guard. */
  predicate Convertible(value: Input)
  {
    value.Str? || value.Num?
  }

  function ToCamelCase(value: Input): (r: Result)
    ensures IsNullish(value) ==> r == Ok("")
    ensures r.TypeError? <==> !IsNullish(value) && !Convertible(value)
    ensures r.TypeError? ==> r.message == CamelTypeMessage
  {
    if IsNullish(value) then Ok("")
    else
      var t := TypeOf(value);
      if t != "string" && t != "number" then TypeError(CamelTypeMessage)
      else
        var s := Trim(Stringify(value));
        if |s| == 0 then Ok("")
        else
          var parts := Tokens(s, true);
          if |parts| == 0 then Ok("") else Ok(Camel(parts))
  }

  function ToDotCase(value: Input): (r: Result)
    ensures IsNullish(value) ==> r == Ok("")
    ensures r.TypeError? <==> !IsNullish(value) && !Convertible(value)
    ensures r.TypeError? ==> r.message == DotTypeMessage
  {
    if IsNullish(value) then Ok("")
    else
      var t := TypeOf(value);
      if t != "string" && t != "number" then TypeError(DotTypeMessage)
      else
        var s := Trim(Stringify(value));
        if |s| == 0 then Ok("")
        else
          var parts := Tokens(s, true);
          if |parts| == 0 then Ok("") else Ok(Join(parts, '.'))
  }

  /** The trim and both early returns change nothing: the camelCase result is
      the rendering of the tokens of `String(value)`. */
  lemma CamelCaseIsRendering(value: Input)
    requires Convertible(value)
    ensures ToCamelCase(value) == Ok(Camel(Tokens(Stringify(value), true)))
  {
    var s := Stringify(value);
    TrimKeepsTokens(s, true);
    NoTokens("", true);
  }

  /** The dot.case result is the tokens of `String(value)` joined by `.`. */
  lemma DotCaseIsJoin(value: Input)
    requires Convertible(value)
    ensures ToDotCase(value) == Ok(Join(Tokens(Stringify(value), true), '.'))
  {
    var s := Stringify(value);
    TrimKeepsTokens(s, true);
    NoTokens("", true);
  }

  /** The camelCase result holds only letters and digits, starts with a
      lower-case letter or digit, and lower-cases to the letters and digits
      of the input, lower-cased, in order; it is empty exactly when the input
      has none. */
  lemma CamelCaseContents(value: Input)
    requires Convertible(value)
    ensures var out := ToCamelCase(value).value;
      && IsAlnumWord(out)
      && LowerString(out) == LowerString(AlnumOnly(Stringify(value)))
      && (out == "" <==> AlnumOnly(Stringify(value)) == "")
      && (|out| > 0 ==> IsLowerOrDigit(out[0]))
  {
    var s := Stringify(value);
    var ts := Tokens(s, true);
    CamelCaseIsRendering(value);
    TokenInvariants(s, true);
    CamelContents(ts);
    if |ts| > 0 {
      assert Camel(ts)[0] == ts[0][0];
    }
  }

  /** The dot.case result is delimited by `.`, and its letters and digits
      are those of the input, lower-cased, in order; it is empty exactly
      when the input has none. */
  lemma DotCaseShape(value: Input)
    requires Convertible(value)
    ensures var out := ToDotCase(value).value;
      && Delimited(out, '.')
      && AlnumOnly(out) == LowerString(AlnumOnly(Stringify(value)))
      && (out == "" <==> AlnumOnly(Stringify(value)) == "")
  {
    var s := Stringify(value);
    var ts := Tokens(s, true);
    DotCaseIsJoin(value);
    TokenInvariants(s, true);
    JoinDelimited(ts, '.');
    JoinAlnum(ts, '.');
  }

  /** Re-tokenising a camelCase result gives the input's tokens back, and
      converting it again changes nothing, whenever the tokens are
      recoverable from their rendering. */
  lemma CamelCaseRoundTrip(value: Input)
    requires Convertible(value)
    requires Recoverable(Tokens(Stringify(value), true))
    ensures Tokens(ToCamelCase(value).value, true) == Tokens(Stringify(value), true)
    ensures ToCamelCase(Str(ToCamelCase(value).value)) == ToCamelCase(value)
  {
    var ts := Tokens(Stringify(value), true);
    CamelCaseIsRendering(value);
    CamelRoundTrip(ts, true);
    CamelCaseIsRendering(Str(Camel(ts)));
  }

  /** Re-tokenising a dot.case result gives the input's tokens back, so the
      conversion is idempotent. */
  lemma DotCaseRoundTrip(value: Input)
    requires Convertible(value)
    ensures Tokens(ToDotCase(value).value, true) == Tokens(Stringify(value), true)
    ensures ToDotCase(Str(ToDotCase(value).value)) == ToDotCase(value)
  {
    var ts := Tokens(Stringify(value), true);
    DotCaseIsJoin(value);
    TokenInvariants(Stringify(value), true);
    TokensOfJoin(ts, '.', true);
    DotCaseIsJoin(Str(Join(ts, '.')));
  }

  /** The digits of a number, without its sign, are its one token. */
  lemma NumberTokens(n: int, splitAcronyms: bool)
    ensures Tokens(IntToString(n), splitAcronyms) == [NatToString(if n < 0 then -n else n)]
  {
    if n < 0 {
      SignDropped("-", NatToString(-n), splitAcronyms);
    } else {
      LowerWordIsOneToken(NatToString(n), splitAcronyms);
    }
  }

  /** A leading separator such as the minus sign is no part of a token. */
  lemma SignDropped(sign: string, d: string, splitAcronyms: bool)
    requires |sign| > 0 && forall i :: 0 <= i < |sign| ==> IsSeparator(sign[i])
    requires |d| > 0 && IsLowerWord(d)
    ensures Tokens(sign + d, splitAcronyms) == [d]
  {
    SeparatorSplit(sign, d, splitAcronyms);
    NoTokens(sign, splitAcronyms);
    LowerWordIsOneToken(d, splitAcronyms);
    AppendNil([], [d]);
  }

  /** A number converts to its decimal digits; a minus sign is a separator
      and disappears. */
  lemma NumberConversions(n: SafeInteger)
    ensures ToCamelCase(Num(n)) == Ok(NatToString(if n < 0 then -n else n))
    ensures ToDotCase(Num(n)) == Ok(NatToString(if n < 0 then -n else n))
  {
    var d := NatToString(if n < 0 then -n else n);
    NumberTokens(n, true);
    CamelCaseIsRendering(Num(n));
    DotCaseIsJoin(Num(n));
    CamelSingle(d);
  }
}

=== FILE: render.dfy ===
/** Step 5 of `toCamelCase`: the first token as it is, every later token with
    its first character upper-cased, all glued together. */
module Render {
  import opened Chars
  import opened Seqs
  import opened WordSplit
  import opened Scan
  import opened Tokenizer
  import opened TokenFacts
  import opened Joins

  /** `w.charAt(0).toUpperCase() + w.slice(1)`; `charAt(0)` of the empty
      string is the empty string. */
  function Capitalize(w: string): (r: string)
    ensures |r| == |w|
    ensures |w| > 0 ==> r[1..] == w[1..]
    ensures IsLowerWord(w) ==> IsAlnumWord(r) && LowerString(r) == w
    ensures IsLowerWord(w) && |w| > 0 ==> (IsUpper(r[0]) <==> IsLower(w[0]))
  {
    if |w| == 0 then "" else [ToUpper(w[0])] + w[1..]
  }

  /** `words.map(w => w.charAt(0).toUpperCase() + w.slice(1))`. */
  function CapitalizeAll(words: seq<string>): (r: seq<string>)
    ensures |r| == |words|
    ensures forall k :: 0 <= k < |r| ==> r[k] == Capitalize(words[k])
  {
    if |words| == 0 then [] else [Capitalize(words[0])] + CapitalizeAll(words[1..])
  }

  /** `parts[0] + parts.slice(1).map(capitalize).join('')`; no parts give the
      empty string, as the converters return before rendering. */
  function Camel(parts: seq<string>): (r: string)
    ensures |parts| > 0 ==> |r| >= |parts[0]| && r[..|parts[0]|] == parts[0]
  {
    if |parts| == 0 then "" else parts[0] + Concat(CapitalizeAll(parts[1..]))
  }

  /** Lower-casing a camelCase rendering undoes the capitals: what is left is
      the tokens glued together, and the rendering only holds letters and
      digits. */
  lemma {:induction false} CamelContents(ts: seq<string>)
    requires LowerTokens(ts)
    ensures IsAlnumWord(Camel(ts))
    ensures LowerString(Camel(ts)) == Concat(ts)
  {
    if |ts| > 0 {
      var rest := CapitalizeAll(ts[1..]);
      CapitalizedContents(ts[1..]);
      LowerStringAppend(ts[0], Concat(rest));
      LowerWordIsFixed(ts[0]);
    }
  }

  lemma {:induction false} CapitalizedContents(ts: seq<string>)
    requires LowerTokens(ts)
    ensures IsAlnumWord(Concat(CapitalizeAll(ts)))
    ensures LowerString(Concat(CapitalizeAll(ts))) == Concat(ts)
    decreases |ts|
  {
    if |ts| > 0 {
      var caps := CapitalizeAll(ts);
      assert caps[1..] == CapitalizeAll(ts[1..]);
      CapitalizedContents(ts[1..]);
      LowerStringAppend(Capitalize(ts[0]), Concat(caps[1..]));
    }
  }

  /** The later tokens start with a letter and every token strictly between
      the first and the last has at least two characters: enough for the
      tokeniser to find the tokens' boundaries again (not necessary: with
      the acronym rule, `a b cd` renders as `aBCd` and splits back). */
  predicate Recoverable(ts: seq<string>)
  {
    && LowerTokens(ts)
    && (forall k :: 1 <= k < |ts| ==> IsLower(ts[k][0]))
    && (forall k :: 1 <= k < |ts| - 1 ==> |ts[k]| >= 2)
  }

  /** Rendering one more token appends its capitalised form. */
  lemma CamelSnoc(ts: seq<string>)
    requires |ts| >= 2
    ensures Camel(ts) == Camel(ts[..|ts| - 1]) + Capitalize(ts[|ts| - 1])
  {
    var n := |ts|;
    var init := ts[..n - 1];
    assert init[0] == ts[0];
    assert init[1..] == ts[1..n - 1];
    assert CapitalizeAll(ts[1..]) == CapitalizeAll(ts[1..n - 1]) + [Capitalize(ts[n - 1])];
    ConcatAppend(CapitalizeAll(ts[1..n - 1]), [Capitalize(ts[n - 1])]);
    assert Concat([Capitalize(ts[n - 1])]) == Capitalize(ts[n - 1]);
    Regroup(ts[0], Concat(CapitalizeAll(ts[1..n - 1])), Capitalize(ts[n - 1]));
  }

  /** A rendering of recoverable tokens ends in a lower-case letter or digit. */
  lemma CamelEnds(ts: seq<string>)
    requires |ts| > 0 && Recoverable(ts)
    requires |ts| == 1 || |ts[|ts| - 1]| >= 2
    ensures |Camel(ts)| > 0 && IsLowerOrDigit(Camel(ts)[|Camel(ts)| - 1])
  {
    if |ts| >= 2 {
      CamelSnoc(ts);
      var c := Capitalize(ts[|ts| - 1]);
      assert c[|c| - 1] == ts[|ts| - 1][|c| - 1];
    }
  }

  /** A capitalised token is one token again. */
  lemma CapitalizedIsOneToken(w: string, splitAcronyms: bool)
    requires |w| > 0 && IsLowerWord(w)
    ensures Tokens(Capitalize(w), splitAcronyms) == [w]
  {
    var c := Capitalize(w);
    forall i | 0 < i < |c|
      ensures !BoundaryBefore(c, i, true, splitAcronyms)
    {
      assert c[i] == w[i];
    }
    OneToken(c, splitAcronyms);
  }

  /** A capital after a lower-case letter or digit always starts a new
      token. */
  lemma CapitalJunction(a: string, b: string, splitAcronyms: bool)
    requires |a| > 0 && IsLowerOrDigit(a[|a| - 1])
    requires |b| > 0 && IsUpper(b[0])
    ensures Tokens(a + b, splitAcronyms) == Tokens(a, splitAcronyms) + Tokens(b, splitAcronyms)
  {
    assert (a + b)[|a| - 1] == a[|a| - 1] && (a + b)[|a|] == b[0];
    assert CaseBoundary((a + b)[|a| - 1], (a + b)[|a|]);
    TokensSplit(a, b, splitAcronyms);
  }

  /** Round trip: tokenising a camelCase rendering gives the tokens back,
      with or without the acronym rule, as long as the tokens are
      recoverable. */
  lemma {:induction false} CamelRoundTrip(ts: seq<string>, splitAcronyms: bool)
    requires Recoverable(ts)
    ensures Tokens(Camel(ts), splitAcronyms) == ts
    decreases |ts|
  {
    var n := |ts|;
    if n == 0 {
      TokenInvariants("", splitAcronyms);
    } else if n == 1 {
      CamelSingle(ts[0]);
      LowerWordIsOneToken(ts[0], splitAcronyms);
    } else {
      var init := ts[..n - 1];
      RecoverablePrefix(ts);
      CamelRoundTrip(init, splitAcronyms);
      assert init + [ts[n - 1]] == ts;
      CamelStep(init, ts[n - 1], splitAcronyms);
    }
  }

  lemma CamelSingle(w: string)
    ensures Camel([w]) == w
  {
    assert Camel([w]) == w + Concat([]);
    AppendNil(w, []);
  }

  lemma CapitalizeLetter(c: char)
    ensures Capitalize([c]) == [ToUpper(c)]
  {
    assert [c][1..] == [];
  }

  lemma ConcatSingle(w: string)
    ensures Concat([w]) == w
  {
    assert [w][1..] == [];
    AppendNil(w, []);
  }

  lemma ConcatPair(v: string, w: string)
    ensures Concat([v, w]) == v + w
  {
    assert [v] + [w] == [v, w];
    ConcatAppend([v], [w]);
    ConcatSingle(v);
    ConcatSingle(w);
  }

  /** A non-empty run of `[a-z0-9]` is one token. */
  lemma LowerWordIsOneToken(w: string, splitAcronyms: bool)
    requires |w| > 0 && IsLowerWord(w)
    ensures Tokens(w, splitAcronyms) == [w]
  {
    forall i | 0 < i < |w|
      ensures !BoundaryBefore(w, i, true, splitAcronyms)
    {
    }
    OneToken(w, splitAcronyms);
    LowerWordIsFixed(w);
  }

  lemma RecoverablePrefix(ts: seq<string>)
    requires |ts| >= 2 && Recoverable(ts)
    ensures Recoverable(ts[..|ts| - 1])
  {
  }

  /** The inductive step: appending a recoverable token to the rendering
      appends it to the tokens. */
  lemma CamelStep(init: seq<string>, last: string, splitAcronyms: bool)
    requires |init| > 0 && Recoverable(init + [last])
    requires Tokens(Camel(init), splitAcronyms) == init
    ensures Tokens(Camel(init + [last]), splitAcronyms) == init + [last]
  {
    SnocParts(init, last);
    CamelEnds(init);
    var a, b := Camel(init), Capitalize(last);
    CapitalJunction(a, b, splitAcronyms);
    CapitalizedIsOneToken(last, splitAcronyms);
  }

  /** What `Recoverable(init + [last])` says about its two parts. */
  lemma SnocParts(init: seq<string>, last: string)
    requires |init| > 0 && Recoverable(init + [last])
    ensures Recoverable(init) && (|init| == 1 || |init[|init| - 1]| >= 2)
    ensures |last| > 0 && IsLowerWord(last) && IsLower(last[0])
    ensures Camel(init + [last]) == Camel(init) + Capitalize(last)
  {
    var ts := init + [last];
    assert ts[..|ts| - 1] == init && ts[|ts| - 1] == last;
    CamelSnoc(ts);
    RecoverablePrefix(ts);
    if |init| > 1 {
      assert ts[|init| - 1] == init[|init| - 1];
    }
  }

  /** The rendering is not a fixed point of re-tokenising: a one-letter token
      in the middle merges with the next capital, so `a b c` renders as
      `aBC`, which renders again as `aBc`. */
  lemma CamelLosesShortMiddleToken(x: char, y: char, z: char, splitAcronyms: bool)
    requires IsLower(x) && IsLower(y) && IsLower(z)
    ensures Camel([[x], [y], [z]]) == [x, ToUpper(y), ToUpper(z)]
    ensures Tokens(Camel([[x], [y], [z]]), splitAcronyms) == [[x], [y, z]]
    ensures Camel(Tokens(Camel([[x], [y], [z]]), splitAcronyms)) == [x, ToUpper(y), z]
    ensures Camel(Tokens(Camel([[x], [y], [z]]), splitAcronyms)) != Camel([[x], [y], [z]])
  {
    CamelOfLetters(x, y, z);
    TokensOfTrailingCapitals([x], [ToUpper(y), ToUpper(z)], splitAcronyms);
    assert LowerString([ToUpper(y), ToUpper(z)]) == [y, z];
    CamelOfLetterAndPair(x, y, z);
  }

  lemma CamelOfLetters(x: char, y: char, z: char)
    ensures Camel([[x], [y], [z]]) == [x] + [ToUpper(y), ToUpper(z)]
  {
    CapitalizeLetter(y);
    CapitalizeLetter(z);
    assert [[x], [y], [z]][1..] == [[y], [z]];
    assert CapitalizeAll([[y], [z]]) == [[ToUpper(y)], [ToUpper(z)]];
    ConcatPair([ToUpper(y)], [ToUpper(z)]);
  }

  /** `aBC`: one boundary, before the first capital; the acronym rule finds
      nothing in a trailing run of capitals because no lower-case letter
      follows it. */
  lemma TokensOfTrailingCapitals(a: string, b: string, splitAcronyms: bool)
    requires |a| > 0 && IsLowerWord(a)
    requires |b| > 0 && forall i :: 0 <= i < |b| ==> IsUpper(b[i])
    ensures Tokens(a + b, splitAcronyms) == [a, LowerString(b)]
  {
    CapitalJunction(a, b, splitAcronyms);
    LowerWordIsOneToken(a, splitAcronyms);
    CapitalsAreOneToken(b, splitAcronyms);
    Pair(a, LowerString(b));
  }

  lemma CapitalsAreOneToken(b: string, splitAcronyms: bool)
    requires |b| > 0 && forall i :: 0 <= i < |b| ==> IsUpper(b[i])
    ensures Tokens(b, splitAcronyms) == [LowerString(b)]
  {
    forall i | 0 < i < |b|
      ensures !BoundaryBefore(b, i, true, splitAcronyms)
    {
    }
    OneToken(b, splitAcronyms);
  }

  lemma CamelOfLetterAndPair(x: char, y: char, z: char)
    ensures Camel([[x], [y, z]]) == [x, ToUpper(y), z]
  {
    assert [y, z][1..] == [z];
    assert Capitalize([y, z]) == [ToUpper(y), z];
    assert [[x], [y, z]][1..] == [[y, z]];
    assert CapitalizeAll([[y, z]]) == [[ToUpper(y), z]];
    ConcatSingle([ToUpper(y), z]);
  }
}

=== FILE: scan.dfy ===
/** A reference tokeniser: one left-to-right scan that looks at three
    characters at a time, puts a boundary before a capital that follows a
    lower-case letter or digit, and before the last capital of a run of
    capitals that is followed by a lower-case letter or digit, and treats
    every other character as a separator. The regex passes of the converters
    are proved to tokenise exactly like it. */
module Scan {
  import opened Chars
  import opened Passes
  import opened WordSplit
  import opened Tokenizer
  import opened Seqs

  /** `aB`, `1B`: a capital after a lower-case letter or digit. */
  predicate CaseBoundary(a: char, b: char)
  {
    IsLowerOrDigit(a) && IsUpper(b)
  }

  /** `ABc`, `AB1`: the last capital of a run followed by `[a-z0-9]`. */
  predicate AcronymBoundary(a: char, b: char, c: char)
  {
    IsUpper(a) && IsUpper(b) && IsLowerOrDigit(c)
  }

  /** Whether a boundary falls between `s[i - 1]` and `s[i]` under the
      chosen rules. */
  predicate BoundaryBefore(s: string, i: nat, caseRule: bool, acronymRule: bool)
    requires 0 < i < |s|
  {
    || (caseRule && CaseBoundary(s[i - 1], s[i]))
    || (acronymRule && i + 1 < |s| && AcronymBoundary(s[i - 1], s[i], s[i + 1]))
  }

  /** `s` with a space inserted at every boundary the chosen rules find. */
  function InsertBoundaries(s: string, caseRule: bool, acronymRule: bool): (r: string)
    ensures |s| >= 1 ==> |r| >= 1 && r[0] == s[0]
    ensures |s| >= 2 ==> |r| >= 2 && r[1] == (if BoundaryBefore(s, 1, caseRule, acronymRule) then ' ' else s[1])
    decreases |s|
  {
    if |s| <= 1 then s
    else
      [s[0]] + (if BoundaryBefore(s, 1, caseRule, acronymRule) then " " else "")
      + InsertBoundaries(s[1..], caseRule, acronymRule)
  }

  function Blank(c: char): char
  {
    if IsAlnum(c) then c else ' '
  }

  function BlankAll(s: string): (r: string)
    ensures |r| == |s|
    ensures forall i :: 0 <= i < |s| ==> r[i] == Blank(s[i])
  {
    if |s| == 0 then [] else [Blank(s[0])] + BlankAll(s[1..])
  }

  /** The reference scan: each character kept if it is a letter or digit and
      turned into a space otherwise, with a space wherever a boundary falls. */
  function Mark(s: string, acronyms: bool): string
    decreases |s|
  {
    if |s| == 0 then [] else MarkHead(s, acronyms) + Mark(s[1..], acronyms)
  }

  /** What the scan emits for `s[0]`: the character or a space, and a space
      when a boundary falls after it. */
  function MarkHead(s: string, acronyms: bool): string
    requires |s| > 0
  {
    [Blank(s[0])] + (if |s| >= 2 then Gap(s, 1, acronyms) else "")
  }

  /** The space the scan puts between `s[i - 1]` and `s[i]`, if any. */
  function Gap(s: string, i: nat, acronyms: bool): string
    requires 0 < i < |s|
  {
    if BoundaryBefore(s, i, true, acronyms) then " " else ""
  }

  lemma MarkedAppend(x: string, y: string)
    requires AlnumOr(x, ' ') && AlnumOr(y, ' ')
    ensures AlnumOr(x + y, ' ')
  {
  }

  /** The scan only keeps letters and digits and only adds spaces. */
  lemma {:induction false} MarkAlphabet(s: string, acronyms: bool)
    ensures AlnumOr(Mark(s, acronyms), ' ')
    decreases |s|
  {
    if |s| > 0 {
      MarkAlphabet(s[1..], acronyms);
      MarkedAppend(MarkHead(s, acronyms), Mark(s[1..], acronyms));
    }
  }

  /** With the spaces removed, the scan is the letters and digits of its
      input. */
  lemma {:induction false} MarkContents(s: string, acronyms: bool)
    ensures RemoveSpaces(Mark(s, acronyms)) == AlnumOnly(s)
    decreases |s|
  {
    if |s| > 0 {
      MarkContents(s[1..], acronyms);
      RemoveSpacesAppend(MarkHead(s, acronyms), Mark(s[1..], acronyms));
      MarkHeadContents(s, acronyms);
    }
  }

  lemma MarkHeadContents(s: string, acronyms: bool)
    requires |s| > 0
    ensures RemoveSpaces(MarkHead(s, acronyms)) + AlnumOnly(s[1..]) == AlnumOnly(s)
  {
    var g := if |s| >= 2 then Gap(s, 1, acronyms) else "";
    RemoveSpacesAppend([Blank(s[0])], g);
    BlankContents(s[0]);
    assert RemoveSpaces(g) == [];
    AlnumOnlyCons(s);
  }

  lemma BlankContents(c: char)
    ensures RemoveSpaces([Blank(c)]) == if IsAlnum(c) then [c] else []
  {
    if IsAlnum(c) {
      AlnumIsNotSpace(c);
    }
  }

  /** The scan starts and ends with the (blanked) first and last characters. */
  lemma {:induction false} MarkEnds(s: string, acronyms: bool)
    requires |s| > 0
    ensures var r := Mark(s, acronyms);
      |r| > 0 && r[0] == Blank(s[0]) && r[|r| - 1] == Blank(s[|s| - 1])
    decreases |s|
  {
    if |s| > 1 {
      MarkEnds(s[1..], acronyms);
    }
  }

  /** The tokens the reference scan finds. */
  function ScanTokens(s: string, acronyms: bool): seq<string>
  {
    LowerAll(Words(Mark(s, acronyms)))
  }

  // ---------------------------------------------------------------------
  // The regex passes are insertions of boundaries.

  /** The case-boundary pass inserts a space at each case boundary. */
  lemma {:induction false} CasePassInserts(s: string)
    ensures SplitCaseBoundaries(s) == InsertBoundaries(s, true, false)
    decreases |s|
  {
    if |s| >= 2 {
      if IsLowerOrDigit(s[0]) && IsUpper(s[1]) {
        CasePassInserts(s[2..]);
        assert s[1..][1..] == s[2..];
        if |s| == 2 {
          assert InsertBoundaries(s[1..], true, false) == [s[1]];
        } else {
          assert !BoundaryBefore(s[1..], 1, true, false);
          assert InsertBoundaries(s[1..], true, false) == [s[1]] + InsertBoundaries(s[2..], true, false);
        }
      } else {
        CasePassInserts(s[1..]);
      }
    }
  }

  /** Inserting boundaries into a string looks only one character back, so
      a suffix is processed the same on its own. */
  lemma BoundaryShift(s: string, n: nat, j: nat, caseRule: bool, acronymRule: bool)
    requires n <= |s| && 0 < j < |s| - n
    ensures BoundaryBefore(s[n..], j, caseRule, acronymRule) == BoundaryBefore(s, n + j, caseRule, acronymRule)
  {
  }

  /** With no boundary at positions `1..n`, the first `n` characters pass
      through unchanged. */
  lemma {:induction false} InsertUnchangedPrefix(s: string, n: nat, caseRule: bool, acronymRule: bool)
    requires n <= |s|
    requires forall i :: 1 <= i <= n && i < |s| ==> !BoundaryBefore(s, i, caseRule, acronymRule)
    ensures InsertBoundaries(s, caseRule, acronymRule) == s[..n] + InsertBoundaries(s[n..], caseRule, acronymRule)
    decreases n
  {
    if n > 0 {
      if |s| == 1 {
        assert s[..n] == s;
      } else {
        var t := s[1..];
        forall i | 1 <= i <= n - 1 && i < |t|
          ensures !BoundaryBefore(t, i, caseRule, acronymRule)
        {
          BoundaryShift(s, 1, i, caseRule, acronymRule);
        }
        InsertUnchangedPrefix(t, n - 1, caseRule, acronymRule);
        InsertUnfold(s, caseRule, acronymRule);
        PrefixStep(s, n);
        Regroup([s[0]], t[..n - 1], InsertBoundaries(t[n - 1..], caseRule, acronymRule));
      }
    }
  }

  lemma PrefixStep<T>(s: seq<T>, n: nat)
    requires 0 < n <= |s|
    ensures s[1..][n - 1..] == s[n..]
    ensures s[..n] == [s[0]] + s[1..][..n - 1]
  {
  }

  /** The acronym pass inserts a space at each acronym boundary. */
  lemma {:induction false} AcronymPassInserts(t: string)
    ensures SplitAcronyms(t) == InsertBoundaries(t, false, true)
    decreases |t|
  {
    if |t| > 0 {
      match MatchAcronym(t)
      case NoMatch =>
        AcronymPassInserts(t[1..]);
        if |t| >= 2 {
          NoAcronymMatchNoBoundary(t);
        }
      case Match(cut, end) =>
        AcronymPassInserts(t[end..]);
        AcronymMatchInserts(t);
    }
  }

  /** Where the pattern does not match, no acronym boundary follows the
      first character. */
  lemma NoAcronymMatchNoBoundary(t: string)
    requires |t| >= 2 && MatchAcronym(t).NoMatch?
    ensures !BoundaryBefore(t, 1, false, true)
  {
  }

  /** Where the pattern matches, the replacement puts a space exactly where
      the only acronym boundary inside the match falls. */
  lemma AcronymMatchInserts(t: string)
    requires MatchAcronym(t).Match?
    ensures var m := MatchAcronym(t);
      InsertBoundaries(t, false, true)
        == t[..m.cut] + " " + t[m.cut..m.end] + InsertBoundaries(t[m.end..], false, true)
  {
    var m := MatchAcronym(t);
    var u := Run(t, IsUpper);
    assert 2 <= u < m.end <= |t|;
    // The run of capitals up to its last two letters passes through.
    InsertUnchangedPrefix(t, u - 2, false, true);
    // A boundary falls between the last two capitals.
    var t1, t2 := t[u - 2..], t[u - 1..];
    AcronymSlices(t, u - 2, m.end);
    AcronymBoundaryInserts(t1);
    // The last capital and the run of `[a-z0-9]` after it pass through.
    var n := m.end - (u - 1);
    AcronymTailPasses(t2, n);
    Assemble(t[..u - 2], t[u - 2], t2[..n], InsertBoundaries(t2[n..], false, true));
  }

  /** The slices the acronym match cuts `t` into, seen from `t[i..]`. */
  lemma AcronymSlices(t: string, i: nat, e: nat)
    requires i + 2 <= e <= |t|
    ensures t[i..][0] == t[i] && t[i..][1..] == t[i + 1..]
    ensures t[..i] + [t[i]] == t[..i + 1]
    ensures t[i + 1..][..e - (i + 1)] == t[i + 1..e]
    ensures t[i + 1..][e - (i + 1)..] == t[e..]
  {
  }

  /** A capital followed by a run of `[a-z0-9]` has no boundary of the
      acronym rule inside or right after the run. */
  lemma AcronymTailPasses(t: string, n: nat)
    requires 2 <= n <= |t|
    requires forall j :: 1 <= j < n ==> IsLowerOrDigit(t[j])
    ensures InsertBoundaries(t, false, true) == t[..n] + InsertBoundaries(t[n..], false, true)
  {
    forall i | 1 <= i <= n && i < |t|
      ensures !BoundaryBefore(t, i, false, true)
    {
      assert IsLowerOrDigit(t[i - 1]) || IsLowerOrDigit(t[i]);
    }
    InsertUnchangedPrefix(t, n, false, true);
  }

  lemma Assemble(p: string, c: char, mid: string, rest: string)
    ensures p + ([c] + " " + (mid + rest)) == (p + [c]) + " " + mid + rest
  {
  }

  lemma AcronymBoundaryInserts(t: string)
    requires |t| >= 3 && AcronymBoundary(t[0], t[1], t[2])
    ensures InsertBoundaries(t, false, true) == [t[0]] + " " + InsertBoundaries(t[1..], false, true)
  {
    assert BoundaryBefore(t, 1, false, true);
  }

  /** The acronym pass after the case pass inserts exactly the boundaries of
      both rules. */
  lemma {:induction false} PassesCompose(s: string)
    ensures InsertBoundaries(InsertBoundaries(s, true, false), false, true)
      == InsertBoundaries(s, true, true)
    decreases |s|
  {
    if |s| >= 2 {
      PassesCompose(s[1..]);
      var x := InsertBoundaries(s[1..], true, false);
      InsertUnfold(s, true, false);
      InsertUnfold(s, true, true);
      if CaseBoundary(s[0], s[1]) {
        ComposeAtCaseBoundary(s[0], x);
      } else {
        ComposeElsewhere(s, x);
      }
    }
  }

  lemma InsertUnfold(s: string, caseRule: bool, acronymRule: bool)
    requires |s| >= 2
    ensures InsertBoundaries(s, caseRule, acronymRule)
      == [s[0]] + (if BoundaryBefore(s, 1, caseRule, acronymRule) then " " else "")
         + InsertBoundaries(s[1..], caseRule, acronymRule)
  {
  }

  /** After a case boundary the acronym pass sees a space and adds nothing. */
  lemma ComposeAtCaseBoundary(c: char, x: string)
    ensures InsertBoundaries([c, ' '] + x, false, true) == [c] + " " + InsertBoundaries(x, false, true)
  {
    var y := [c, ' '] + x;
    assert y[1..] == [' '] + x;
    assert ([' '] + x)[1..] == x;
    assert !BoundaryBefore(y, 1, false, true);
    if |x| > 0 {
      assert !BoundaryBefore([' '] + x, 1, false, true);
    }
  }

  /** Without a case boundary after `s[0]` the acronym pass decides alone. */
  lemma ComposeElsewhere(s: string, x: string)
    requires |s| >= 2 && !CaseBoundary(s[0], s[1])
    requires x == InsertBoundaries(s[1..], true, false)
    ensures InsertBoundaries([s[0]] + x, false, true)
      == [s[0]] + (if BoundaryBefore(s, 1, true, true) then " " else "")
         + InsertBoundaries(x, false, true)
  {
    var y := [s[0]] + x;
    assert y[1..] == x;
    if |s| >= 3 {
      assert BoundaryBefore(y, 1, false, true) == AcronymBoundary(s[0], s[1], s[2]);
    }
  }

  // ---------------------------------------------------------------------
  // The separator pass and the split see the same words.

  /** Two strings with the same words, that break at the front alike, keep
      the same words under any common prefix. */
  predicate SameWords(a: string, b: string)
  {
    Words(a) == Words(b) && Breaks(a) == Breaks(b)
  }

  lemma SameWordsCons(c: char, a: string, b: string)
    requires SameWords(a, b)
    ensures SameWords([c] + a, [c] + b)
  {
    if IsSpace(c) {
      WordsSpaceCons(c, a);
      WordsSpaceCons(c, b);
    } else {
      WordsCons(c, a);
      WordsCons(c, b);
    }
  }

  lemma {:induction false} BlankRunHasNoWords(y: string, n: nat)
    requires n <= |y|
    requires forall i :: 0 <= i < n ==> IsSeparator(y[i])
    ensures Words(BlankAll(y)) == Words(BlankAll(y[n..]))
    decreases n
  {
    if n > 0 {
      assert BlankAll(y) == [' '] + BlankAll(y[1..]);
      WordsSpaceCons(' ', BlankAll(y[1..]));
      BlankRunHasNoWords(y[1..], n - 1);
      assert y[1..][n - 1..] == y[n..];
    }
  }

  /** Replacing each run of separators by one space, or each separator by a
      space, gives the same words. */
  lemma {:induction false} SeparatorPassWords(y: string)
    ensures SameWords(ReplaceSeparators(y, ' '), BlankAll(y))
    decreases |y|
  {
    if |y| > 0 {
      if IsAlnum(y[0]) {
        var a, b := ReplaceSeparators(y[1..], ' '), BlankAll(y[1..]);
        SeparatorPassWords(y[1..]);
        BlankAllCons(y);
        ReplaceSeparatorsCons(y);
        SameWordsConsEq(y[0], a, b, ReplaceSeparators(y, ' '), BlankAll(y));
      } else {
        var n := Run(y, IsSeparator);
        var a, b := ReplaceSeparators(y[n..], ' '), BlankAll(y[n..]);
        SeparatorPassWords(y[n..]);
        ReplaceSeparatorsRun(y);
        BlankRunHasNoWords(y, n);
        SameWordsBlankEq(a, b, ReplaceSeparators(y, ' '), BlankAll(y));
      }
    }
  }

  lemma SameWordsConsEq(c: char, a: string, b: string, x: string, z: string)
    requires x == [c] + a && z == [c] + b
    requires SameWords(a, b)
    ensures SameWords(x, z)
  {
    SameWordsCons(c, a, b);
  }

  lemma BlankAllCons(y: string)
    requires |y| > 0 && IsAlnum(y[0])
    ensures BlankAll(y) == [y[0]] + BlankAll(y[1..])
  {
  }

  lemma ReplaceSeparatorsCons(y: string)
    requires |y| > 0 && IsAlnum(y[0])
    ensures ReplaceSeparators(y, ' ') == [y[0]] + ReplaceSeparators(y[1..], ' ')
  {
  }

  lemma ReplaceSeparatorsRun(y: string)
    requires |y| > 0 && !IsAlnum(y[0])
    ensures ReplaceSeparators(y, ' ') == [' '] + ReplaceSeparators(y[Run(y, IsSeparator)..], ' ')
  {
  }

  /** A leading space, kept or collapsed, starts no word. */
  lemma SameWordsBlankEq(a: string, b: string, x: string, z: string)
    requires x == [' '] + a
    requires |z| > 0 && z[0] == ' ' && Words(z) == Words(b)
    requires SameWords(a, b)
    ensures SameWords(x, z)
  {
    WordsSpaceCons(' ', a);
  }

  lemma {:induction false} BlankInserted(s: string, acronyms: bool)
    ensures BlankAll(InsertBoundaries(s, true, acronyms)) == Mark(s, acronyms)
    decreases |s|
  {
    if |s| >= 2 {
      BlankInserted(s[1..], acronyms);
      var gap := if BoundaryBefore(s, 1, true, acronyms) then " " else "";
      BlankAllAppend([s[0]] + gap, InsertBoundaries(s[1..], true, acronyms));
      BlankAllAppend([s[0]], gap);
    }
  }

  lemma {:induction false} BlankAllAppend(a: string, b: string)
    ensures BlankAll(a + b) == BlankAll(a) + BlankAll(b)
  {
  }

  /** The regex pipeline tokenises every string exactly as the reference
      scan does. */
  lemma {:induction false} TokensMatchScan(s: string, splitAcronyms: bool)
    ensures Tokens(s, splitAcronyms) == ScanTokens(s, splitAcronyms)
  {
    var camel := SplitCaseBoundaries(s);
    CasePassInserts(s);
    var b := if splitAcronyms then SplitAcronyms(camel) else camel;
    if splitAcronyms {
      AcronymPassInserts(camel);
      PassesCompose(s);
    }
    assert b == InsertBoundaries(s, true, splitAcronyms);
    SeparatorPassWords(b);
    BlankInserted(s, splitAcronyms);
  }
}

=== FILE: seqs.dfy ===
/** Small facts about sequence concatenation and slicing, stated once so that
    the proofs that need them do not ask the solver to rediscover them. */
module Seqs {

  lemma Regroup<T>(x: seq<T>, y: seq<T>, z: seq<T>)
    ensures x + (y + z) == (x + y) + z
  {
  }

  lemma DropAppend<T>(a: seq<T>, b: seq<T>)
    requires |a| > 0
    ensures (a + b)[0] == a[0]
    ensures (a + b)[1..] == a[1..] + b
  {
  }

  lemma AppendNil<T>(x: seq<T>, y: seq<T>)
    ensures x + [] + y == x + y
    ensures x + [] == x && [] + y == y
  {
  }

  lemma Pair<T>(p: T, q: T)
    ensures [p] + [q] == [p, q]
  {
  }

  lemma Four<T>(p: T, q: T, r: T, t: T)
    ensures [p] + [q] + [r] + [t] == [p, q, r, t]
  {
  }

  lemma PairPair<T>(p: T, q: T, r: T, t: T)
    ensures [p, q] + [r, t] == [p, q, r, t]
  {
  }

  lemma PairThenOne<T>(p: T, q: T, r: T)
    ensures [p, q] + [r] == [p, q, r]
  {
  }

  lemma LastOfDrop<T>(a: seq<T>, n: nat)
    requires n < |a|
    ensures |a[n..]| > 0 && a[n..][|a[n..]| - 1] == a[|a| - 1]
  {
  }

  lemma DropAll<T>(a: seq<T>, b: seq<T>)
    ensures a[|a|..] == [] && a[|a|..] + b == b
  {
  }

  lemma DropFromAppend<T>(a: seq<T>, b: seq<T>, n: nat)
    requires n <= |a|
    ensures (a + b)[n..] == a[n..] + b
  {
  }

  lemma HeadTail<T>(s: seq<T>)
    requires |s| > 0
    ensures s == [s[0]] + s[1..]
  {
  }

  lemma InitLast<T>(s: seq<T>)
    requires |s| > 0
    ensures s == s[..|s| - 1] + [s[|s| - 1]]
  {
  }

  lemma SplitThree<T>(s: seq<T>, i: nat, j: nat)
    requires i <= j <= |s|
    ensures s == s[..i] + s[i..j] + s[j..]
  {
  }
}

=== FILE: token_facts.dfy ===
/** What the tokeniser guarantees about its tokens, proved on the reference
    scan and carried over to the regex pipeline. */
module TokenFacts {
  import opened Chars
  import opened Passes
  import opened WordSplit
  import opened Tokenizer
  import opened Scan
  import opened Seqs
  import opened JsValues

  /** Every token is a non-empty run of `[a-z0-9]`, and the tokens together
      are exactly the ASCII letters and digits of the input, lower-cased, in
      their original order: nothing is dropped, added or reordered. There are
      no tokens exactly when the input has no ASCII letter or digit. */
  lemma {:induction false} TokenInvariants(s: string, splitAcronyms: bool)
    ensures var ts := Tokens(s, splitAcronyms);
      forall k :: 0 <= k < |ts| ==> |ts[k]| > 0 && IsLowerWord(ts[k])
    ensures Concat(Tokens(s, splitAcronyms)) == LowerString(AlnumOnly(s))
    ensures Tokens(s, splitAcronyms) == [] <==> AlnumOnly(s) == []
  {
    TokensMatchScan(s, splitAcronyms);
    var m := Mark(s, splitAcronyms);
    MarkAlphabet(s, splitAcronyms);
    MarkContents(s, splitAcronyms);
    var ws := Words(m);
    WordsAreAlnum(m);
    ConcatWords(m);
    ConcatLower(ws);
    var ts := LowerAll(ws);
    assert ts == Tokens(s, splitAcronyms);
    if ts != [] {
      assert Concat(ts) == ts[0] + Concat(ts[1..]);
      assert |Concat(ts)| > 0;
    }
  }

  /** The scan of `a + b` is the scans of `a` and `b`, with a space between
      them when a boundary falls at the junction, provided the acronym rule
      does not look from the end of `a` into `b`. */
  predicate LookaheadSafe(a: string, b: string, acronyms: bool)
    requires |b| > 0
  {
    !(acronyms && |a| >= 2 && AcronymBoundary(a[|a| - 2], a[|a| - 1], b[0]))
  }

  lemma {:induction false} MarkAppend(a: string, b: string, acronyms: bool)
    requires |a| > 0 && |b| > 0
    requires LookaheadSafe(a, b, acronyms)
    ensures Mark(a + b, acronyms) == Mark(a, acronyms) + Gap(a + b, |a|, acronyms) + Mark(b, acronyms)
    decreases |a|
  {
    if |a| == 1 {
      MarkAppendSingle(a, b, acronyms);
    } else {
      var t := a[1..];
      assert LookaheadSafe(t, b, acronyms) by {
        if |t| >= 2 {
          assert t[|t| - 2] == a[|a| - 2] && t[|t| - 1] == a[|a| - 1];
        }
      }
      MarkAppend(t, b, acronyms);
      MarkAppendStep(a, b, acronyms);
    }
  }

  lemma MarkAppendSingle(a: string, b: string, acronyms: bool)
    requires |a| == 1 && |b| > 0
    ensures Mark(a + b, acronyms) == Mark(a, acronyms) + Gap(a + b, |a|, acronyms) + Mark(b, acronyms)
  {
    var s := a + b;
    assert s[1..] == b;
    assert Mark(a, acronyms) == [Blank(a[0])];
  }

  /** One step of the induction: the first character of `a` is handled alike
      in `a` and in `a + b`. */
  lemma MarkAppendStep(a: string, b: string, acronyms: bool)
    requires |a| > 1 && |b| > 0
    requires LookaheadSafe(a, b, acronyms)
    requires Mark(a[1..] + b, acronyms)
      == Mark(a[1..], acronyms) + Gap(a[1..] + b, |a| - 1, acronyms) + Mark(b, acronyms)
    ensures Mark(a + b, acronyms) == Mark(a, acronyms) + Gap(a + b, |a|, acronyms) + Mark(b, acronyms)
  {
    var s := a + b;
    var t := a[1..];
    DropAppend(a, b);
    var x := [Blank(a[0])] + Gap(a, 1, acronyms);
    var g2 := Gap(s, |a|, acronyms);
    GapShift(a, b, acronyms);
    MarkUnfold(s, acronyms);
    MarkUnfold(a, acronyms);
    assert s[0] == a[0];
    Regroup(x, Mark(t, acronyms) + g2, Mark(b, acronyms));
    Regroup(x, Mark(t, acronyms), g2);
  }

  lemma MarkUnfold(s: string, acronyms: bool)
    requires |s| >= 2
    ensures Mark(s, acronyms) == [Blank(s[0])] + Gap(s, 1, acronyms) + Mark(s[1..], acronyms)
  {
  }

  lemma GapShift(a: string, b: string, acronyms: bool)
    requires |a| > 1 && |b| > 0
    requires LookaheadSafe(a, b, acronyms)
    ensures Gap(a + b, 1, acronyms) == Gap(a, 1, acronyms)
    ensures Gap(a + b, |a|, acronyms) == Gap(a[1..] + b, |a| - 1, acronyms)
  {
    var s := a + b;
    DropAppend(a, b);
    BoundaryShift(s, 1, |a| - 1, true, acronyms);
  }

  /** A junction where a boundary falls, or where a separator stands, splits
      the tokens: `a + b` has the tokens of `a` followed by those of `b`. */
  lemma {:induction false} TokensSplit(a: string, b: string, splitAcronyms: bool)
    requires |a| > 0 && |b| > 0
    requires LookaheadSafe(a, b, splitAcronyms)
    requires || BoundaryBefore(a + b, |a|, true, splitAcronyms)
             || IsSeparator(a[|a| - 1]) || IsSeparator(b[0])
    ensures Tokens(a + b, splitAcronyms) == Tokens(a, splitAcronyms) + Tokens(b, splitAcronyms)
  {
    TokensMatchScan(a + b, splitAcronyms);
    TokensMatchScan(a, splitAcronyms);
    TokensMatchScan(b, splitAcronyms);
    MarkSplitWords(a, b, splitAcronyms);
    LowerAllAppend(Words(Mark(a, splitAcronyms)), Words(Mark(b, splitAcronyms)));
  }

  lemma MarkSplitWords(a: string, b: string, acronyms: bool)
    requires |a| > 0 && |b| > 0
    requires LookaheadSafe(a, b, acronyms)
    requires || BoundaryBefore(a + b, |a|, true, acronyms)
             || IsSeparator(a[|a| - 1]) || IsSeparator(b[0])
    ensures Words(Mark(a + b, acronyms)) == Words(Mark(a, acronyms)) + Words(Mark(b, acronyms))
  {
    MarkAppend(a, b, acronyms);
    var ma, mb := Mark(a, acronyms), Mark(b, acronyms);
    if BoundaryBefore(a + b, |a|, true, acronyms) {
      assert Gap(a + b, |a|, acronyms) == [' '];
      WordsAppendSpace(ma, ' ', mb);
    } else {
      assert Gap(a + b, |a|, acronyms) == [];
      AppendNil(ma, mb);
      MarkEnds(a, acronyms);
      MarkEnds(b, acronyms);
      WordsAppendBreak(ma, mb);
    }
  }

  /** A junction between two letters or digits where no boundary falls fuses
      the last token of `a` with the first token of `b`. */
  lemma {:induction false} TokensMerge(a: string, b: string, splitAcronyms: bool)
    requires |a| > 0 && |b| > 0
    requires LookaheadSafe(a, b, splitAcronyms)
    requires IsAlnum(a[|a| - 1]) && IsAlnum(b[0])
    requires !BoundaryBefore(a + b, |a|, true, splitAcronyms)
    ensures |Tokens(a, splitAcronyms)| > 0 && |Tokens(b, splitAcronyms)| > 0
    ensures Tokens(a + b, splitAcronyms) == Fuse(Tokens(a, splitAcronyms), Tokens(b, splitAcronyms))
  {
    TokensMatchScan(a + b, splitAcronyms);
    TokensMatchScan(a, splitAcronyms);
    TokensMatchScan(b, splitAcronyms);
    MarkMergeWords(a, b, splitAcronyms);
    LowerAllFuse(Words(Mark(a, splitAcronyms)), Words(Mark(b, splitAcronyms)));
  }

  lemma MarkMergeWords(a: string, b: string, acronyms: bool)
    requires |a| > 0 && |b| > 0
    requires LookaheadSafe(a, b, acronyms)
    requires IsAlnum(a[|a| - 1]) && IsAlnum(b[0])
    requires !BoundaryBefore(a + b, |a|, true, acronyms)
    ensures |Words(Mark(a, acronyms))| > 0 && |Words(Mark(b, acronyms))| > 0
    ensures Words(Mark(a + b, acronyms)) == Fuse(Words(Mark(a, acronyms)), Words(Mark(b, acronyms)))
  {
    MarkAppend(a, b, acronyms);
    var ma, mb := Mark(a, acronyms), Mark(b, acronyms);
    assert Gap(a + b, |a|, acronyms) == [];
    AppendNil(ma, mb);
    MarkEnds(a, acronyms);
    MarkEnds(b, acronyms);
    AlnumIsNotSpace(a[|a| - 1]);
    AlnumIsNotSpace(b[0]);
    WordsMerge(ma, mb);
  }

  lemma {:induction false} MarkWithoutBoundary(s: string, acronyms: bool)
    requires IsAlnumWord(s)
    requires forall i :: 0 < i < |s| ==> !BoundaryBefore(s, i, true, acronyms)
    ensures Mark(s, acronyms) == s
    decreases |s|
  {
    if |s| > 1 {
      forall i | 0 < i < |s| - 1
        ensures !BoundaryBefore(s[1..], i, true, acronyms)
      {
        BoundaryShift(s, 1, i, true, acronyms);
      }
      MarkWithoutBoundary(s[1..], acronyms);
    }
  }

  /** A string of letters and digits without an internal boundary is one
      token. */
  lemma {:induction false} OneToken(s: string, splitAcronyms: bool)
    requires |s| > 0 && IsAlnumWord(s)
    requires forall i :: 0 < i < |s| ==> !BoundaryBefore(s, i, true, splitAcronyms)
    ensures Tokens(s, splitAcronyms) == [LowerString(s)]
  {
    TokensMatchScan(s, splitAcronyms);
    MarkWithoutBoundary(s, splitAcronyms);
    forall i | 0 <= i < |s|
      ensures !IsSpace(s[i])
    {
      AlnumIsNotSpace(s[i]);
    }
    WordsOfWord(s);
  }

  lemma {:induction false} MarkWithoutCapitals(s: string, acronyms: bool)
    requires forall i :: 0 <= i < |s| ==> !IsUpper(s[i])
    ensures Mark(s, acronyms) == BlankAll(s)
    decreases |s|
  {
    if |s| > 0 {
      MarkWithoutCapitals(s[1..], acronyms);
    }
  }

  lemma {:induction false} JoinWithoutCapitals(ts: seq<string>, c: char)
    requires !IsUpper(c)
    requires forall k :: 0 <= k < |ts| ==> IsLowerWord(ts[k])
    ensures forall i :: 0 <= i < |Join(ts, c)| ==> !IsUpper(Join(ts, c)[i])
    decreases |ts|
  {
    if |ts| > 1 {
      JoinWithoutCapitals(ts[1..], c);
    }
  }

  lemma {:induction false} BlankJoin(ts: seq<string>, c: char)
    requires IsSeparator(c)
    requires forall k :: 0 <= k < |ts| ==> IsLowerWord(ts[k])
    ensures BlankAll(Join(ts, c)) == Join(ts, ' ')
    decreases |ts|
  {
    if |ts| > 1 {
      BlankJoin(ts[1..], c);
      BlankAllAppend(ts[0] + [c], Join(ts[1..], c));
      BlankAllAppend(ts[0], [c]);
    }
  }

  /** Joining lower-case tokens with any separator and tokenising again
      gives the tokens back. */
  lemma {:induction false} TokensOfJoin(ts: seq<string>, c: char, splitAcronyms: bool)
    requires IsSeparator(c)
    requires forall k :: 0 <= k < |ts| ==> |ts[k]| > 0 && IsLowerWord(ts[k])
    ensures Tokens(Join(ts, c), splitAcronyms) == ts
  {
    var x := Join(ts, c);
    TokensMatchScan(x, splitAcronyms);
    JoinWithoutCapitals(ts, c);
    MarkWithoutCapitals(x, splitAcronyms);
    BlankJoin(ts, c);
    forall k | 0 <= k < |ts|
      ensures NoSpace(ts[k])
    {
      forall i | 0 <= i < |ts[k]|
        ensures !IsSpace(ts[k][i])
      {
        AlnumIsNotSpace(ts[k][i]);
      }
    }
    WordsOfJoin(ts, ' ');
    forall k | 0 <= k < |ts|
      ensures LowerString(ts[k]) == ts[k]
    {
      LowerWordIsFixed(ts[k]);
    }
    assert LowerAll(ts) == ts;
  }

  /** No two adjacent capitals. */
  predicate NoAdjacentCapitals(s: string)
  {
    forall i :: 0 <= i < |s| - 1 ==> !(IsUpper(s[i]) && IsUpper(s[i + 1]))
  }

  lemma {:induction false} AcronymRuleIdle(s: string)
    requires NoAdjacentCapitals(s)
    ensures Mark(s, true) == Mark(s, false)
    decreases |s|
  {
    if |s| > 0 {
      AcronymRuleIdle(s[1..]);
    }
  }

  /** Without two adjacent capitals the acronym pass changes no token. */
  lemma AcronymPassIdle(s: string)
    requires NoAdjacentCapitals(s)
    ensures Tokens(s, true) == Tokens(s, false)
  {
    TokensMatchScan(s, true);
    TokensMatchScan(s, false);
    AcronymRuleIdle(s);
  }

  /** Tokens never run across a separator. */
  lemma SeparatorSplit(a: string, b: string, splitAcronyms: bool)
    requires |a| > 0 && |b| > 0
    requires IsSeparator(a[|a| - 1]) || IsSeparator(b[0])
    ensures Tokens(a + b, splitAcronyms) == Tokens(a, splitAcronyms) + Tokens(b, splitAcronyms)
  {
    TokensSplit(a, b, splitAcronyms);
  }

  /** A string of separators has no tokens. */
  lemma NoTokens(s: string, splitAcronyms: bool)
    requires forall i :: 0 <= i < |s| ==> IsSeparator(s[i])
    ensures Tokens(s, splitAcronyms) == []
  {
    SeparatorRunHasNoAlnum(s, |s|);
    TokenInvariants(s, splitAcronyms);
  }

  /** Separators around a string add no tokens. */
  lemma AroundSeparators(p: string, x: string, q: string, splitAcronyms: bool)
    requires forall i :: 0 <= i < |p| ==> IsSeparator(p[i])
    requires forall i :: 0 <= i < |q| ==> IsSeparator(q[i])
    ensures Tokens(p + x + q, splitAcronyms) == Tokens(x, splitAcronyms)
  {
    var xq := x + q;
    Regroup(p, x, q);
    NoTokens(p, splitAcronyms);
    NoTokens(q, splitAcronyms);
    if |q| > 0 && |x| > 0 {
      SeparatorSplit(x, q, splitAcronyms);
    } else if |q| == 0 {
      AppendNil(x, []);
    } else {
      AppendNil([], q);
    }
    assert Tokens(xq, splitAcronyms) == Tokens(x, splitAcronyms);
    if |p| > 0 && |xq| > 0 {
      SeparatorSplit(p, xq, splitAcronyms);
    } else if |p| == 0 {
      AppendNil([], xq);
    } else {
      AppendNil(p, []);
    }
  }

  /** `trim` removes only whitespace, which never belongs to a token. */
  lemma TrimKeepsTokens(s: string, splitAcronyms: bool)
    ensures Tokens(Trim(s), splitAcronyms) == Tokens(s, splitAcronyms)
  {
    var r := Trim(s);
    var i := Run(s, IsSpace);
    var j := i + |r|;
    SplitThree(s, i, j);
    forall c | IsSpace(c)
      ensures IsSeparator(c)
    {
      if IsAlnum(c) {
        AlnumIsNotSpace(c);
      }
    }
    AroundSeparators(s[..i], r, s[j..], splitAcronyms);
  }
}

=== FILE: tokenizer.dfy ===
/** The tokenising half every converter shares: the case-boundary pass, the
    acronym pass (absent from the unguarded variant), the separator pass,
    then `split(/\s+/).filter(Boolean).map(p => p.toLowerCase())`. */
module Tokenizer {
  import opened Chars
  import opened Passes
  import opened WordSplit

  /** The string the separator pass leaves: boundaries marked by one space,
      every run of other characters replaced by one space. */
  function Spaced(s: string, splitAcronyms: bool): (r: string)
    ensures Separated(r, ' ')
  {
    var camel := SplitCaseBoundaries(s);
    var acronyms := if splitAcronyms then SplitAcronyms(camel) else camel;
    ReplaceSeparators(acronyms, ' ')
  }

  /** The lower-cased word tokens of `s`. */
  function Tokens(s: string, splitAcronyms: bool): (ts: seq<string>)
    ensures forall k :: 0 <= k < |ts| ==> |ts[k]| > 0
  {
    LowerAll(Words(Spaced(s, splitAcronyms)))
  }
}

=== FILE: values.dfy ===
/** The JavaScript values a converter can be called with, the `typeof` tag the
    type guards inspect, `String(value)`, `String.prototype.trim`, and the
    converters' result (a string, or a thrown `TypeError`). */
module JsValues {
  import opened Chars
  import opened Seqs
  import opened Passes

  /** The largest integer a double holds with every smaller integer:
      `Number.MAX_SAFE_INTEGER`, 2^53 - 1. */
  const MaxSafeInteger: int := 0x1F_FFFF_FFFF_FFFF

  /** The integers `String` prints digit for digit. Beyond them a double
      prints its shortest round-trip digits, which this model does not
      compute. */
  type SafeInteger = n: int | -MaxSafeInteger <= n <= MaxSafeInteger

  /** A JavaScript value as far as the converters can tell them apart.
      Numbers are modelled as safe integers only. `Obj` and `Func` carry the
      text that `String(value)` yields for them when the conversion to a
      primitive succeeds; only the unguarded converter ever looks at it. */
  datatype Input =
    | Null
    | Undefined
    | Str(s: string)
    | Num(n: SafeInteger)
    | BigInt(big: int)
    | Bool(b: bool)
    | Sym(description: string)
    | Obj(text: string)
    | Func(text: string)

  /** A converter either returns a string or throws a `TypeError`. */
  datatype Result = Ok(value: string) | TypeError(message: string)

  /** `value == null`, which holds for both null and undefined. */
  predicate IsNullish(v: Input)
  {
    v.Null? || v.Undefined?
  }

  /** The `typeof` operator. */
  function TypeOf(v: Input): (t: string)
    ensures t == "object" <==> v.Null? || v.Obj?
    ensures t == "function" <==> v.Func?
    ensures t == "string" <==> v.Str?
    ensures t == "number" <==> v.Num?
  {
    match v
    case Null => "object"
    case Undefined => "undefined"
    case Str(_) => "string"
    case Num(_) => "number"
    case BigInt(_) => "bigint"
    case Bool(_) => "boolean"
    case Sym(_) => "symbol"
    case Obj(_) => "object"
    case Func(_) => "function"
  }

  function DigitChar(d: nat): (c: char)
    requires d < 10
    ensures IsDigit(c)
  {
    (d + '0' as int) as char
  }

  /** Decimal digits of a natural number, most significant first. */
  function NatToString(n: nat): (r: string)
    ensures |r| >= 1
    ensures forall i :: 0 <= i < |r| ==> IsDigit(r[i])
    ensures n > 0 ==> r[0] != '0'
    decreases n
  {
    if n < 10 then [DigitChar(n)] else NatToString(n / 10) + [DigitChar(n % 10)]
  }

  /** The value a string of decimal digits denotes; the inverse of `NatToString`. */
  function DecimalValue(r: string): nat
    requires forall i :: 0 <= i < |r| ==> IsDigit(r[i])
  {
    if |r| == 0 then 0
    else
      var last := r[|r| - 1];
      assert IsDigit(last);
      10 * DecimalValue(r[..|r| - 1]) + (last as int - '0' as int)
  }

  lemma {:induction false} NatToStringRoundTrip(n: nat)
    ensures DecimalValue(NatToString(n)) == n
    decreases n
  {
    if n >= 10 {
      var r := NatToString(n);
      assert r[..|r| - 1] == NatToString(n / 10);
      NatToStringRoundTrip(n / 10);
    }
  }

  /** `r` is the decimal text of `n`: a minus sign exactly when `n` is
      negative, then digits without a leading zero that read back as the
      magnitude of `n`. */
  predicate IsDecimalText(r: string, n: int)
  {
    && |r| > 0
    && (r[0] == '-' <==> n < 0)
    && var d := if n < 0 then r[1..] else r;
       && |d| > 0
       && (forall i :: 0 <= i < |d| ==> IsDigit(d[i]))
       && (|d| > 1 ==> d[0] != '0')
       && DecimalValue(d) == if n < 0 then -n else n
  }

  /** `String(n)` for a safe integer or a bigint. */
  function IntToString(n: int): (r: string)
    ensures n >= 0 ==> r == NatToString(n)
    ensures n < 0 ==> r == "-" + NatToString(-n)
    ensures IsDecimalText(r, n)
  {
    if n < 0 then
      var d := NatToString(-n);
      NatToStringRoundTrip(-n);
      assert ("-" + d)[1..] == d;
      "-" + d
    else
      NatToStringRoundTrip(n);
      NatToString(n)
  }

  /** `String(value)`: a string is itself, a boolean is `true` or `false`,
      and a number or a bigint is its decimal text. */
  function Stringify(v: Input): (r: string)
    ensures v.Str? ==> r == v.s
    ensures v.Bool? ==> r == if v.b then "true" else "false"
    ensures v.Num? ==> IsDecimalText(r, v.n)
    ensures v.BigInt? ==> IsDecimalText(r, v.big)
  {
    match v
    case Null => "null"
    case Undefined => "undefined"
    case Str(s) => s
    case Num(n) => IntToString(n)
    case BigInt(n) => IntToString(n)
    case Bool(b) => if b then "true" else "false"
    case Sym(d) => "Symbol(" + d + ")"
    case Obj(text) => text
    case Func(text) => text
  }

  /** The length of the longest suffix of `s` whose characters satisfy `p`. */
  function RunBack(s: string, p: char -> bool): (n: nat)
    ensures n <= |s|
    ensures forall i :: |s| - n <= i < |s| ==> p(s[i])
    ensures n < |s| ==> !p(s[|s| - 1 - n])
  {
    if |s| > 0 && p(s[|s| - 1]) then 1 + RunBack(s[..|s| - 1], p) else 0
  }

  /** `String.prototype.trim`: the slice of `s` between its leading and
      trailing whitespace. */
  function Trim(s: string): (r: string)
    ensures var i := Run(s, IsSpace);
      && i + |r| <= |s|
      && r == s[i..i + |r|]
      && (forall j :: 0 <= j < i ==> IsSpace(s[j]))
      && (forall j :: i + |r| <= j < |s| ==> IsSpace(s[j]))
    ensures |r| > 0 ==> !IsSpace(r[0]) && !IsSpace(r[|r| - 1])
  {
    var i := Run(s, IsSpace);
    if i == |s| then ""
    else
      var k := RunBack(s, IsSpace);
      assert !IsSpace(s[i]);
      s[i..|s| - k]
  }

  /** Trimming a string that neither starts nor ends with whitespace leaves it alone. */
  lemma TrimUntouched(s: string)
    requires |s| > 0 ==> !IsSpace(s[0]) && !IsSpace(s[|s| - 1])
    ensures Trim(s) == s
  {
  }

  /** Trimming only removes whitespace, so no letter or digit is lost. */
  lemma {:induction false} TrimKeepsAlnum(s: string)
    ensures AlnumOnly(Trim(s)) == AlnumOnly(s)
  {
    var r := Trim(s);
    var i := Run(s, IsSpace);
    var p, q := s[..i], s[i + |r|..];
    SplitThree(s, i, i + |r|);
    assert forall j :: 0 <= j < |p| ==> IsSpace(p[j]);
    assert forall j :: 0 <= j < |q| ==> IsSpace(q[j]) by {
      forall j | 0 <= j < |q|
        ensures IsSpace(q[j])
      {
        assert q[j] == s[i + |r| + j];
      }
    }
    AlnumOnlyAroundSpaces(p, r, q);
  }

  lemma AlnumOnlyAroundSpaces(p: string, r: string, q: string)
    requires forall j :: 0 <= j < |p| ==> IsSpace(p[j])
    requires forall j :: 0 <= j < |q| ==> IsSpace(q[j])
    ensures AlnumOnly(p + r + q) == AlnumOnly(r)
  {
    AlnumOnlyAppend(p + r, q);
    AlnumOnlyAppend(p, r);
    NoAlnumInSpaces(p);
    NoAlnumInSpaces(q);
  }

  lemma {:induction false} NoAlnumInSpaces(s: string)
    requires forall j :: 0 <= j < |s| ==> IsSpace(s[j])
    ensures AlnumOnly(s) == []
  {
    if |s| > 0 {
      NoAlnumInSpaces(s[1..]);
    }
  }
}

=== FILE: words.dfy ===
/** Step 4 of the converters, `s.split(/\s+/).filter(Boolean)`, and the
    `Array.prototype.join` used by the renderers. */
module WordSplit {
  import opened Chars
  import opened Passes
  import opened Seqs

  /** The string is empty or starts with whitespace, i.e. a word cannot
      continue into it from the left. */
  predicate Breaks(x: string)
  {
    |x| == 0 || IsSpace(x[0])
  }

  predicate NoSpace(w: string)
  {
    forall i :: 0 <= i < |w| ==> !IsSpace(w[i])
  }

  /** `s.split(/\s+/)`: the pieces between maximal runs of whitespace, with
      an empty piece before a leading run and after a trailing one. */
  function SplitSpaces(s: string): (parts: seq<string>)
    ensures |parts| >= 1
    ensures forall k :: 0 <= k < |parts| ==> NoSpace(parts[k])
    ensures Breaks(s) ==> parts[0] == ""
    ensures !Breaks(s) ==> |parts[0]| > 0 && parts[0][0] == s[0]
    decreases |s|
  {
    if |s| == 0 then [""]
    else if IsSpace(s[0]) then [""] + SplitSpaces(s[Run(s, IsSpace)..])
    else
      var rest := SplitSpaces(s[1..]);
      [[s[0]] + rest[0]] + rest[1..]
  }

  /** `parts.filter(Boolean)`: the empty strings dropped, every other piece
      kept. */
  function NonEmpty(parts: seq<string>): (r: seq<string>)
    ensures |r| <= |parts|
    ensures forall k :: 0 <= k < |r| ==> |r[k]| > 0
    ensures (forall k :: 0 <= k < |parts| ==> NoSpace(parts[k])) ==>
      forall k :: 0 <= k < |r| ==> NoSpace(r[k])
  {
    if |parts| == 0 then []
    else if |parts[0]| == 0 then NonEmpty(parts[1..])
    else [parts[0]] + NonEmpty(parts[1..])
  }

  /** The filter keeps exactly the non-empty pieces. */
  lemma {:induction false} NonEmptyKeeps(parts: seq<string>)
    ensures forall w :: w in NonEmpty(parts) <==> w in parts && |w| > 0
  {
    if |parts| > 0 {
      NonEmptyKeeps(parts[1..]);
      HeadTail(parts);
    }
  }

  lemma NonEmptyCons(p: string, ps: seq<string>)
    ensures NonEmpty([p] + ps) == if |p| == 0 then NonEmpty(ps) else [p] + NonEmpty(ps)
  {
    assert ([p] + ps)[1..] == ps;
  }

  /** The whitespace-separated words of `s`. */
  function Words(s: string): (ws: seq<string>)
    ensures forall k :: 0 <= k < |ws| ==> |ws[k]| > 0 && NoSpace(ws[k])
  {
    NonEmpty(SplitSpaces(s))
  }

  /** `parts.join(sep)`: the parts in order, with one `sep` between each
      two neighbours. */
  function Join(parts: seq<string>, sep: char): (r: string)
    ensures |parts| > 0 ==> |r| >= |parts[0]| && r[..|parts[0]|] == parts[0]
    ensures |parts| > 1 ==> |r| > |parts[0]| && r[|parts[0]|] == sep
  {
    if |parts| == 0 then ""
    else if |parts| == 1 then parts[0]
    else parts[0] + [sep] + Join(parts[1..], sep)
  }

  /** `parts.join('')`. Its laws are separate lemmas (`ConcatAppend` here,
      `Render.ConcatSingle`), because a contract on it slows every proof that
      unfolds it. */
  function Concat(parts: seq<string>): (r: string)
  {
    if |parts| == 0 then "" else parts[0] + Concat(parts[1..])
  }

  /** `parts.map(p => p.toLowerCase())`. */
  function LowerAll(parts: seq<string>): (r: seq<string>)
    ensures |r| == |parts|
    ensures forall k :: 0 <= k < |r| ==> r[k] == LowerString(parts[k])
  {
    if |parts| == 0 then [] else [LowerString(parts[0])] + LowerAll(parts[1..])
  }

  lemma {:induction false} LowerAllAppend(a: seq<string>, b: seq<string>)
    ensures LowerAll(a + b) == LowerAll(a) + LowerAll(b)
    decreases |a|
  {
    if |a| == 0 {
      assert a + b == b;
    } else {
      assert (a + b)[1..] == a[1..] + b;
      LowerAllAppend(a[1..], b);
    }
  }

  lemma LowerAllFuse(w: seq<string>, v: seq<string>)
    requires |w| > 0 && |v| > 0
    ensures LowerAll(Fuse(w, v)) == Fuse(LowerAll(w), LowerAll(v))
  {
    var init, m, rest := w[..|w| - 1], w[|w| - 1] + v[0], v[1..];
    LowerAllAppend(init + [m], rest);
    LowerAllAppend(init, [m]);
    LowerStringAppend(w[|w| - 1], v[0]);
    LowerAllSlices(w, v);
  }

  lemma LowerAllSlices(w: seq<string>, v: seq<string>)
    requires |w| > 0 && |v| > 0
    ensures LowerAll(w[..|w| - 1]) == LowerAll(w)[..|w| - 1]
    ensures LowerAll(v[1..]) == LowerAll(v)[1..]
  {
  }

  /** Whitespace in front of a string does not change its words. */
  lemma {:induction false} WordsSpaceCons(c: char, x: string)
    requires IsSpace(c)
    ensures Words([c] + x) == Words(x)
  {
    var s := [c] + x;
    assert s[1..] == x;
    var n := Run(s, IsSpace);
    assert n == 1 + Run(x, IsSpace);
    assert s[n..] == x[n - 1..];
    var m := Run(x, IsSpace);
    if m > 0 {
      assert SplitSpaces(x) == [""] + SplitSpaces(x[m..]);
      assert NonEmpty(SplitSpaces(x)) == NonEmpty(SplitSpaces(x[m..]));
    } else {
      assert x[m..] == x;
    }
  }

  /** A character that is not whitespace either starts a new first word (when
      `x` breaks) or is prepended to the first word of `x`. */
  lemma {:induction false} WordsCons(c: char, x: string)
    requires !IsSpace(c)
    ensures !Breaks(x) ==> |Words(x)| > 0
    ensures Words([c] + x) ==
      if Breaks(x) then [[c]] + Words(x)
      else [[c] + Words(x)[0]] + Words(x)[1..]
  {
    var s := [c] + x;
    assert s[1..] == x;
    var rest := SplitSpaces(x);
    assert SplitSpaces(s) == [[c] + rest[0]] + rest[1..];
    assert rest == [rest[0]] + rest[1..];
    NonEmptyCons([c] + rest[0], rest[1..]);
    NonEmptyCons(rest[0], rest[1..]);
    if Breaks(x) {
      assert [c] + rest[0] == [c];
    }
  }

  /** A whitespace character splits the words of a string in two. */
  lemma {:induction false} WordsAppendSpace(x: string, c: char, y: string)
    requires IsSpace(c)
    ensures Words(x + [c] + y) == Words(x) + Words(y)
    decreases |x|
  {
    if |x| == 0 {
      assert x + [c] + y == [c] + y;
      WordsSpaceCons(c, y);
    } else {
      var t := x[1..] + [c] + y;
      assert x + [c] + y == [x[0]] + t;
      assert x == [x[0]] + x[1..];
      WordsAppendSpace(x[1..], c, y);
      if IsSpace(x[0]) {
        WordsSpaceCons(x[0], t);
        WordsSpaceCons(x[0], x[1..]);
      } else {
        assert Breaks(t) == Breaks(x[1..]);
        WordsConsAppend(x[0], x[1..], t, Words(y));
      }
    }
  }

  /** Prepending a non-whitespace character commutes with appending words
      after a string that keeps its first-word structure. */
  lemma WordsConsAppend(d: char, u: string, t: string, tail: seq<string>)
    requires !IsSpace(d)
    requires Words(t) == Words(u) + tail
    requires Breaks(t) == Breaks(u)
    ensures Words([d] + t) == Words([d] + u) + tail
  {
    WordsCons(d, t);
    WordsCons(d, u);
    var wu := Words(u);
    if Breaks(u) {
      Regroup([[d]], wu, tail);
    } else {
      DropAppend(wu, tail);
      Regroup([[d] + wu[0]], wu[1..], tail);
    }
  }

  /** Words do not run across whitespace at the end of `x` or the start of `y`. */
  lemma WordsAppendBreak(x: string, y: string)
    requires (|x| > 0 && IsSpace(x[|x| - 1])) || (|y| > 0 && IsSpace(y[0]))
    ensures Words(x + y) == Words(x) + Words(y)
  {
    if |x| > 0 && IsSpace(x[|x| - 1]) {
      var x', c := x[..|x| - 1], x[|x| - 1];
      InitLast(x);
      WordsAppendSpace(x', c, y);
      WordsAppendSpace(x', c, []);
      AppendNil(x' + [c], y);
      AppendNil(Words(x'), Words(y));
    } else {
      var c, y' := y[0], y[1..];
      HeadTail(y);
      Regroup(x, [c], y');
      WordsAppendSpace(x, c, y');
      WordsSpaceCons(c, y');
    }
  }

  lemma {:induction false} WordsNonEmpty(x: string)
    requires exists i :: 0 <= i < |x| && !IsSpace(x[i])
    ensures |Words(x)| > 0
  {
    var i :| 0 <= i < |x| && !IsSpace(x[i]);
    ConcatWords(x);
    SomeNonSpaceSurvives(x, i);
  }

  lemma {:induction false} SomeNonSpaceSurvives(x: string, i: nat)
    requires i < |x| && !IsSpace(x[i])
    ensures |RemoveSpaces(x)| > 0
    decreases i
  {
    if i > 0 && IsSpace(x[0]) {
      SomeNonSpaceSurvives(x[1..], i - 1);
    }
  }

  /** The last word of `w` fused with the first word of `v`. */
  function Fuse(w: seq<string>, v: seq<string>): seq<string>
    requires |w| > 0 && |v| > 0
  {
    w[..|w| - 1] + [w[|w| - 1] + v[0]] + v[1..]
  }

  lemma FuseConsWord(p: string, w: seq<string>, v: seq<string>)
    requires |w| > 0 && |v| > 0
    ensures Fuse([p] + w, v) == [p] + Fuse(w, v)
  {
    assert ([p] + w)[..|w|] == [p] + w[..|w| - 1];
  }

  lemma FuseConsChar(c: char, w: seq<string>, v: seq<string>)
    requires |w| > 0 && |v| > 0
    ensures var f := Fuse(w, v);
      Fuse([[c] + w[0]] + w[1..], v) == [[c] + f[0]] + f[1..]
  {
    var f := Fuse(w, v);
    if |w| == 1 {
      assert f == [w[0] + v[0]] + v[1..];
      assert [c] + (w[0] + v[0]) == ([c] + w[0]) + v[0];
    } else {
      assert f[0] == w[0];
      assert f[1..] == Fuse(w[1..], v);
    }
  }

  /** A word ending `x` and a word starting `y` fuse into one word. */
  lemma {:induction false} WordsMerge(x: string, y: string)
    requires |x| > 0 && !IsSpace(x[|x| - 1])
    requires |y| > 0 && !IsSpace(y[0])
    ensures |Words(x)| > 0 && |Words(y)| > 0
    ensures Words(x + y) == Fuse(Words(x), Words(y))
    decreases |x|
  {
    WordsNonEmpty(x);
    WordsNonEmpty(y);
    if |x| == 1 {
      WordsMergeSingle(x, y);
    } else {
      var c, x' := x[0], x[1..];
      WordsMerge(x', y);
      WordsMergeStep(c, x', y);
      HeadTail(x);
      Regroup([c], x', y);
    }
  }

  lemma WordsMergeSingle(x: string, y: string)
    requires |x| == 1 && !IsSpace(x[0])
    requires |y| > 0 && !IsSpace(y[0])
    ensures Words(x + y) == Fuse(Words(x), Words(y))
  {
    var c := x[0];
    assert x == [c];
    WordsCons(c, y);
    WordsCons(c, []);
    AppendNil([c], y);
  }

  /** The step of `WordsMerge`: the first character of `x` joins or precedes
      the fused words alike. */
  lemma WordsMergeStep(c: char, x': string, y: string)
    requires |x'| > 0 && |y| > 0
    requires |Words(x')| > 0 && |Words(y)| > 0
    requires !IsSpace(x'[|x'| - 1])
    requires Words(x' + y) == Fuse(Words(x'), Words(y))
    ensures Words([c] + (x' + y)) == Fuse(Words([c] + x'), Words(y))
  {
    DropAppend(x', y);
    if IsSpace(c) {
      WordsSpaceCons(c, x' + y);
      WordsSpaceCons(c, x');
    } else {
      WordsCons(c, x' + y);
      WordsCons(c, x');
      if Breaks(x') {
        FuseConsWord([c], Words(x'), Words(y));
      } else {
        FuseConsChar(c, Words(x'), Words(y));
      }
    }
  }

  /** A non-empty string without whitespace is one word. */
  lemma {:induction false} WordsOfWord(w: string)
    requires |w| > 0 && NoSpace(w)
    ensures Words(w) == [w]
    decreases |w|
  {
    assert w == [w[0]] + w[1..];
    WordsCons(w[0], w[1..]);
    if |w| > 1 {
      WordsOfWord(w[1..]);
    }
  }

  /** Splitting a join on whitespace gives the joined words back. */
  lemma {:induction false} WordsOfJoin(ts: seq<string>, c: char)
    requires IsSpace(c)
    requires forall k :: 0 <= k < |ts| ==> |ts[k]| > 0 && NoSpace(ts[k])
    ensures Words(Join(ts, c)) == ts
    decreases |ts|
  {
    if |ts| == 0 {
    } else if |ts| == 1 {
      WordsOfWord(ts[0]);
    } else {
      WordsOfJoin(ts[1..], c);
      WordsAppendSpace(ts[0], c, Join(ts[1..], c));
      WordsOfWord(ts[0]);
      assert ts == [ts[0]] + ts[1..];
    }
  }

  /** The words, glued back together, are the string without its whitespace. */
  lemma {:induction false} ConcatWords(x: string)
    ensures Concat(Words(x)) == RemoveSpaces(x)
    decreases |x|
  {
    if |x| > 0 {
      var c, t := x[0], x[1..];
      assert x == [c] + t;
      ConcatWords(t);
      if IsSpace(c) {
        WordsSpaceCons(c, t);
      } else {
        WordsCons(c, t);
        var w := Words(t);
        if !Breaks(t) {
          assert Concat(w) == w[0] + Concat(w[1..]);
          assert [c] + w[0] + Concat(w[1..]) == ([c] + w[0]) + Concat(w[1..]);
        }
      }
    }
  }

  /** Every word of a string over letters, digits and whitespace is made of
      letters and digits. */
  lemma {:induction false} WordsAreAlnum(x: string)
    requires forall i :: 0 <= i < |x| ==> IsAlnum(x[i]) || IsSpace(x[i])
    ensures forall k :: 0 <= k < |Words(x)| ==> IsAlnumWord(Words(x)[k])
    decreases |x|
  {
    if |x| > 0 {
      var c, t := x[0], x[1..];
      assert x == [c] + t;
      WordsAreAlnum(t);
      if IsSpace(c) {
        WordsSpaceCons(c, t);
      } else {
        WordsCons(c, t);
      }
    }
  }

  lemma {:induction false} ConcatAppend(a: seq<string>, b: seq<string>)
    ensures Concat(a + b) == Concat(a) + Concat(b)
    decreases |a|
  {
    if |a| > 0 {
      assert (a + b)[1..] == a[1..] + b;
      ConcatAppend(a[1..], b);
    } else {
      assert a + b == b;
    }
  }

  lemma {:induction false} ConcatLower(parts: seq<string>)
    ensures Concat(LowerAll(parts)) == LowerString(Concat(parts))
    decreases |parts|
  {
    if |parts| > 0 {
      ConcatLower(parts[1..]);
      LowerStringAppend(parts[0], Concat(parts[1..]));
    }
  }

  /** Lower-casing a join with a caseless separator lower-cases each part. */
  lemma {:induction false} JoinLower(parts: seq<string>, sep: char)
    requires !IsUpper(sep)
    ensures LowerString(Join(parts, sep)) == Join(LowerAll(parts), sep)
    decreases |parts|
  {
    if |parts| > 1 {
      JoinLower(parts[1..], sep);
      LowerStringAppend(parts[0] + [sep], Join(parts[1..], sep));
      LowerStringAppend(parts[0], [sep]);
    }
  }
}
